=== FILE: README.md ===
# aesdsocket: packet reassembly, commit and echo

This project models the core of `aesdsocket`, a TCP server on port 9000:
- Clients send newline-delimited packets.
- The server appends each complete packet to the data file `/var/tmp/aesdsocketdata`.
- After every packet, it sends the whole file back to the client that sent it.
- On shutdown it removes the file.

Two versions of the server are modelled separately:

- the current server, `server/aesdsocket.c`:
  - a reassembly buffer that grows by doubling;
  - an inner loop that takes every complete packet before the next `recv`;
  - an echo that reads the file in 1024-byte pieces and sends each piece through a loop that copes with partial sends and interrupted calls;
  - an accept loop driven by the exit flag.
- the earlier server, `server/server.bak/aesdsocket.c`:
  - a fixed 1024-byte buffer filled by non-blocking `recv`;
  - at most one packet taken per `recv`;
  - an echo that ignores what `send` returns;
  - an accept loop that leaves on any interrupted `accept`.

Bytes are `byte = x: int | 0 <= x < 256`. The data file is `DataFile = Absent | Present(content)` and starts from an arbitrary value.

Every outcome the program does not control is an input script:
- what `recv`, `send`, `accept`, `open`, `write`, `read` and `realloc` return;
- the value of the exit flag each time it is read.

A per-packet script of file and `send` outcomes that runs out means a well-behaved environment: in the current server, every later `open`, `write`, `read` and `send` made for a packet succeeds in full. A `recv` or accept script that runs out has its own meaning:
- in the current server, a connection whose `recv` script runs out is taken as closed by its peer (`Listener.ServeConnection` under "## Left out");
- in the earlier server, `recv` finds nothing to read, which under `MSG_DONTWAIT` ends the connection;
- in both servers, an accept script that runs out leaves the server waiting in `accept` (`Listener.AcceptLoop` and `Legacy.LegacyAcceptLoop` under "## Left out").

Modules, one per file:

- `Buffers` (`buffers.dfy`): the byte type, the packet delimiter, and the data file. It also holds the `strchr` scan of a buffer NUL-terminated after its occupied bytes; the scan sees only the bytes before the first zero byte.
- `Capacity` (`capacity.dfy`): the growth rule of the reassembly buffer.
- `Framing` (`framing.dfy`): cutting the first packet off a buffer (`Extract`), and the loop that cuts all of them (`Drain`). It also proves that `Drain` is the only way to split a buffer into complete packets plus a fragment in which the scan sees no newline; chunking independence rests on this.
- `Transmit` (`transmit.dfy`):
  - the send loop, both as a reference function (`SendLoop`) and as the loop itself (`SendAll`);
  - the read-and-send echo of the file, both as a reference function (`EchoFrom`) and as the loop itself (`EchoLog`).
- `Connection` (`connection.dfy`):
  - committing and echoing one packet;
  - the inner loop with its failure exits (`DrainIo`);
  - one `recv` step (`Receive`) and a whole connection (`Serve`).
- `Servers` (`servers.dfy`): where an accept loop ends up, running with its data file or shut down; shared by both servers.
- `Listener` (`listener.dfy`): the accept loop of the current server, and removal of the data file when it stops.
- `Legacy` (`legacy.dfy`): the earlier server — its receive step, echo, connection and accept loop.

The scan is the code's, not that of a plain newline-delimited protocol:
- A newline-delimited protocol ends a packet at the first newline.
- The code instead calls `strchr` on the buffer, NUL-terminated at `data_len`.
- So a zero byte before the first newline hides that newline. Nothing after the zero byte is framed on that connection until a failed `realloc` empties the buffer (lines 198-202 set `data_len` to 0), after which newlines that arrive later are framed again.

`Buffers.Strchr` and `Framing.IsPacket` model this as written. Chunking independence is proved for all byte values, zero bytes included.

## Model

| member | source | states |
|---|---|---|
| Buffers.Strchr | server/aesdsocket.c:208-214 | the scan over a buffer NUL-terminated after its data finds a newline that has no newline or zero byte before it; it finds none exactly when no newline comes before the first zero byte |
| Capacity.DoubleUntil | server/aesdsocket.c:193-196 | doubling from a positive start reaches at least the needed size, yields the start doubled some number of times, and overshoots by less than a factor of two |
| Capacity.Grow | server/aesdsocket.c:191-206 | no growth exactly when data, chunk and terminator already fit; allocation failure is reported exactly when they do not fit and `realloc` fails; a growth gives a strictly larger capacity that holds `data_len + recv_len + 1`, starts from 1024 or twice the old capacity, and keeps the capacity of the form 0 or 1024·2^k |
| Capacity.CapacityForm | server/aesdsocket.c:191-206 | the capacities the rule can produce are exactly 0 and 1024·2^k |
| Framing.Extract | server/aesdsocket.c:213-215 | a packet is found exactly when the scan sees a newline; the packet is the prefix of the buffer through that newline, and the packet followed by the shifted remainder is the old buffer |
| Framing.Drain | server/aesdsocket.c:212-268 | every piece the inner loop takes is a complete packet, and when it stops, no newline is visible in what is left |
| Framing.DrainReassembles | server/aesdsocket.c:263-267 | nothing is lost or reordered: the packets taken, then the fragment left, are the buffer |
| Framing.DrainUnique | server/aesdsocket.c:212-268 | any split of a buffer into complete packets followed by a fragment with no visible newline is the split the loop makes |
| Framing.DrainAppend | server/aesdsocket.c:172-268 | framing a buffer and then its leftover plus the next bytes gives the packets of the whole stream, in order, and the same fragment |
| Framing.DrainIdempotent | server/aesdsocket.c:214 | once the loop has stopped, scanning the leftover again yields no packet |
| Framing.StrchrFindsLeadingPacket | server/aesdsocket.c:214-215 | a buffer that starts with a complete packet is cut at that packet's newline, whatever follows it |
| Transmit.SendLoop | server/aesdsocket.c:239-255 | the loop never counts more bytes sent than were offered, and it ends normally exactly when all of them were sent |
| Transmit.SendLoopLeavesSuffix | server/aesdsocket.c:239-255 | the loop consumes kernel replies from the front only |
| Transmit.SendLoopAbortCause | server/aesdsocket.c:242-253 | the loop aborts only on an `EINTR` seen with the exit flag set, or on another send error, and that reply is the last one it consumed |
| Transmit.SendLoopRetries | server/aesdsocket.c:240-249 | every other reply the loop consumed was a send of some bytes or an `EINTR` with the exit flag clear, which it retried |
| Transmit.SendAll | server/aesdsocket.c:239-255 | the bytes on the wire are the first `sent` bytes of the piece, `sent` never exceeds the piece length, and the outcome is the reference loop's |
| Transmit.EchoSendsLogPrefix | server/aesdsocket.c:231-261 | the echo only ever sends a prefix of the file; it sends all of it when it completes; without a read failure, completing and sending everything are the same; a read failure aborts only at the failing `read` call |
| Transmit.EchoHealthy | server/aesdsocket.c:236-257 | when every read and send succeeds, the echo sends the whole file and completes |
| Transmit.EchoLog | server/aesdsocket.c:231-261 | the read-and-send loop behaves as the reference echo: same bytes sent, same replies consumed, same outcome |
| Connection.CommitEchoSpec | server/aesdsocket.c:217-261 | the file grows by exactly the packet exactly when the append succeeds; a failed open leaves the file unchanged, closes the connection and echoes nothing; a short write stores a strict prefix of the packet, echoes nothing and closes; with no failure the echo is the whole file after the commit, and it is always a prefix of that file |
| Connection.SnapshotAt | server/aesdsocket.c:230-256 | the i-th echo of a run of commits is the initial log followed by packets 0 to i |
| Connection.DrainIoCommitsPackets | server/aesdsocket.c:212-268 | when no call fails, the inner loop logs exactly the complete packets, echoes the whole log after each, and keeps the fragment |
| Connection.DrainIoLogsPrefix | server/aesdsocket.c:212-268 | whatever fails, the log grows only by a prefix of the buffer's complete packets, so no fragment is ever logged |
| Connection.DrainIoHealthy | server/aesdsocket.c:217-261 | when every file and socket call succeeds, the inner loop never closes the connection |
| Connection.ReceiveDispatch | server/aesdsocket.c:174-206 | a zero-length `recv`, a non-`EINTR` error, or an `EINTR` with the exit flag set closes the connection and changes nothing else; an `EINTR` with the flag clear changes nothing; a failed `realloc` empties the buffer, drops the chunk and keeps the capacity and the connection; only a chunk that gets room touches the file or the client |
| Connection.ReceiveKeepsSized | server/aesdsocket.c:191-210 | the buffer and its terminator stay within a capacity of the form 0 or 1024·2^k, capacity never decreases, and a chunk is copied only once `data_len + recv_len + 1` fits |
| Connection.ReceiveKeepsDrained | server/aesdsocket.c:210-268 | while the connection stays open, no newline is visible in the buffer between two `recv` calls |
| Connection.ReceiveLogsPackets | server/aesdsocket.c:172-268 | a `recv` step never shrinks the log, and it only adds packets completed by the chunk it received |
| Connection.ServeFlagClear | server/aesdsocket.c:172-268 | a connection closes for a shutdown only at a `recv` or `send` interruption that saw the exit flag set; every other failure closes it for another reason |
| Connection.ServeAppend | server/aesdsocket.c:172-269 | serving two scripts one after the other is serving their concatenation |
| Connection.ServeKeepsSized | server/aesdsocket.c:191-210 | over a whole connection the buffer stays sized and the capacity only grows |
| Connection.ServeHealthy | server/aesdsocket.c:172-268 | in a healthy environment a connection logs and echoes exactly the packets of the concatenated stream; the i-th echo is the log after the i-th commit, and the trailing fragment stays buffered |
| Connection.ChunkingIndependence | server/aesdsocket.c:172-268 | two healthy connections whose chunks concatenate to the same stream end with the same buffer, log, echoes and script, whatever the chunking |
| Connection.PeerCloseDropsFragment | server/aesdsocket.c:176-178 | in a healthy connection (no failed `realloc`), when the peer closes, the log holds exactly the complete packets of the stream and the unterminated fragment is discarded |
| Connection.ServeFromPackets | server/aesdsocket.c:172-268 | a healthy stream made of given packets and a fragment with no visible newline commits exactly those packets |
| Connection.HelloWorld | server/aesdsocket.c:172-268 | sending `hello\n` then `world\n` to an empty log echoes `hello\n` and then `hello\nworld\n` |
| Connection.SplitPacket | server/aesdsocket.c:172-268 | sending `ab` and then `c\nd` commits and echoes exactly `abc\n`, and `d` stays buffered |
| Listener.AcceptLoopSpec | server/aesdsocket.c:151-278 | once the accept loop stops, the data file no longer exists; while it runs, the log only grows |
| Listener.AcceptErrorsRetried | server/aesdsocket.c:153-160 | failed accepts, other than an `EINTR` seen with the exit flag set, neither stop the server nor touch the file |
| Listener.AcceptLoopStops | server/aesdsocket.c:151-278 | the loop stops, and the file is removed, at the first turn that sees the exit flag at the loop head or in an interrupted `accept`, whatever connections were served and however they ended before it, provided none of them saw the flag |
| Listener.RunsWhileFlagClear | server/aesdsocket.c:151-275 | the loop leaves only when the exit flag is seen: failed accepts and connections closed for any other reason (peer shutdown, `recv` error, failed open, short write, failed read, failed `send`) leave the server running |
| Listener.HealthyConnection | server/aesdsocket.c:167-275 | a healthy connection served until the peer closes adds exactly its complete packets to the log |
| Listener.HealthyConnectionsLog | server/aesdsocket.c:151-275 | across a run of healthy connections, the log is the initial log followed by each connection's complete packets, connection after connection, and the server keeps running |
| Listener.ServeLogGrows | server/aesdsocket.c:172-269 | the log only grows over a connection, whatever fails |
| Legacy.LegacyEchoBounded | server/server.bak/aesdsocket.c:140-145 | the echo never sends more bytes than the file holds, and when every `send` takes its whole piece it sends exactly the file |
| Legacy.PartialSendLeavesGap | server/server.bak/aesdsocket.c:143-145 | a `send` that takes 1 byte of a 1024-byte piece is not retried: the client gets byte 0 and then byte 1024, which is not a prefix of the file |
| Legacy.LegacyStepBounded | server/server.bak/aesdsocket.c:125-132 | a `recv` limited to `1024 - bytes_in_buffer - 1` bytes keeps the buffer under 1024 bytes, so the terminator always fits |
| Legacy.LegacyStepCloses | server/server.bak/aesdsocket.c:128-130 | a set exit flag at the loop head, a failed `recv` or an empty `recv` ends the connection and leaves the buffer, log and client untouched |
| Legacy.FullBufferCloses | server/server.bak/aesdsocket.c:129-130 | a buffer holding 1023 bytes with no newline leaves `recv` room for 0 bytes, so the next turn ends the connection |
| Legacy.OnePacketPerReceive | server/server.bak/aesdsocket.c:134-149 | a `recv` with data commits at most the first complete packet; every later packet stays in the buffer, unlogged, in order; the bytes then sent only extend the wire, by at most the new log's length, and by exactly the new log when every `send` takes its whole piece; without a packet nothing is sent |
| Legacy.LegacyServeSpec | server/server.bak/aesdsocket.c:125-151 | every connection ends, its buffer stays under 1024 bytes, and its log only grows |
| Legacy.SecondPacketLost | server/server.bak/aesdsocket.c:128-151 | two packets that arrive in one `recv` with nothing after them: only the first is logged and echoed, and the second is lost when the connection ends |
| Legacy.LegacyAcceptLoopSpec | server/server.bak/aesdsocket.c:103-159 | once the accept loop stops, `cleanup_resources` has removed the data file; while it runs, the log only grows |
| Legacy.LegacyRunsWhileFlagClear | server/server.bak/aesdsocket.c:103-157 | the earlier server keeps running through failed accepts, data files that fail to open and connections ended by `recv`, as long as neither the exit flag nor an interrupted `accept` is seen |
| Legacy.LegacyAcceptLoopStops | server/server.bak/aesdsocket.c:103-159 | the earlier server stops and `cleanup_resources` removes the data file at the first turn that reads the exit flag set or whose `accept` is interrupted, whatever was served before it |
| Legacy.InterruptedAcceptStops | server/server.bak/aesdsocket.c:107-109 | an interrupted `accept` ends the server even when the exit flag is clear, and the data file is removed |

## Left out

- Socket setup, address printing, daemonization, signal-handler registration and `syslog` are not modelled. This is operating-system plumbing with no logic of its own. The exit flag is an input read at each place the code reads it.
- `SA_RESTART`: the current server installs its handlers with `SA_RESTART` (server/aesdsocket.c:60), and no socket timeout is set (line 100 sets only `SO_REUSEADDR`). Under these conditions Linux always restarts an interrupted `accept`, `recv` or `send`, so the `EINTR` branches at lines 155-156, 180-184 and 243-247 never run. A SIGINT or SIGTERM that arrives while the server is blocked in `accept` or `recv` takes effect only when that call returns for another reason, such as a new client or data from the peer. The model still lets every one of these calls be interrupted, so it covers more behaviour than can occur.
- `Listener.AcceptLoopStops`: its interrupted-`accept` case, like the `EINTR` cases of `Connection.ReceiveDispatch` and `Transmit.SendLoopAbortCause`, is reachable only with a handler installed without `SA_RESTART`. The earlier server installs its handlers without `SA_RESTART`, so its `EINTR` branches are reachable.
- SIGPIPE: neither server sends with `MSG_NOSIGNAL` (server/aesdsocket.c:241, server/server.bak/aesdsocket.c:144), and neither sets a SIGPIPE disposition. A `send` to a peer that has gone away therefore kills the process, which skips the `unlink` at server/aesdsocket.c:278 and `cleanup_resources` in the earlier server, and leaves the data file on disk. The model leaves that signal out: it treats such a `send` as a `SendError` that closes the connection while the server keeps accepting (`Transmit.SendLoop`, `Listener.AcceptLoop`), and in the earlier server as a `send` whose result is ignored (`Legacy.LegacyEchoFrom`).
- The flag is sticky. A connection that closes because it saw the flag set ends its accept loop, because the flag is read again at the loop head.
- The growth arithmetic is done on unbounded integers. `size_t` overflow of `data_len + recv_len + 1` or of the doubling would need a buffer near the address-space size.
- `Connection.RecvEvent`: `recv` chunks are not bounded by `MAX_LENGTH`. The kernel never returns more than that, and no property here depends on the bound.
- `Connection.PacketIo`: the kernel replies for an echo are scripted per packet. Replies left over when an echo ends are dropped.
- `read` returning fewer than 1024 bytes before the end of the file is not modelled. Each read returns the next 1024 bytes, or what is left. A `read` failure is modelled, at a chosen call.
- Legacy: the `fwrite` and `fflush` of the packet are assumed to succeed. The code ignores their results.
- `Legacy.Admissible`: a `recv` of the earlier server is assumed never to return more bytes than it asked for. This is a precondition on the script that the kernel guarantees.
- `Listener.ServeConnection`: a connection whose `recv` script runs out while it is still open is treated as closed by its peer.
- `Listener.AcceptLoop` and `Legacy.LegacyAcceptLoop`: a script of accept attempts that runs out leaves the server running, waiting in `accept`.
- `server/aesdsocket.c:272-274`: freeing the buffer and closing the descriptors have no counterpart. The model has no memory or descriptors; a closed session is simply dropped.
- The threaded variant and the concurrent scheduling model are not part of this model. Both servers modelled here serve connections one at a time.
- The `systemcalls` helpers (`do_system`, `do_exec`, `do_exec_redirect`) and `finder-app/writer.c` are not part of this model. They are thin wrappers over process and file calls.

=== FILE: buffers.dfy ===
/** Byte sequences as the socket server sees them: the byte type, the packet
    delimiter, the NUL-terminated scan the server uses to find it, and the
    data file every connection appends to. */
module Buffers {

  newtype byte = x: int | 0 <= x < 256

  /** The packet delimiter, `'\n'`. */
  const Newline: byte := 0x0A

  /** The terminator written after the occupied part of a receive buffer. */
  const Nul: byte := 0x00

  /** `MAX_LENGTH`: the size of one receive, of one read of the data file,
      and of a connection's first buffer allocation. */
  const MaxLength: nat := 1024

  datatype Option<+T> = None | Some(value: T)

  function Min(a: nat, b: nat): nat
  {
    if a <= b then a else b
  }

  /** Plain search: the first position of `b` in `s`. */
  function IndexOf(s: seq<byte>, b: byte): (r: Option<nat>)
    ensures r.None? <==> b !in s
    ensures r.Some? ==> r.value < |s| && s[r.value] == b && b !in s[..r.value]
  {
    if |s| == 0 then None
    else if s[0] == b then Some(0)
    else
      match IndexOf(s[1..], b)
      case None => None
      case Some(i) =>
        assert s[..i + 1] == [s[0]] + s[1..][..i];
        Some(i + 1)
  }

  /** How far a C string scan over `s` reaches once `s` is NUL-terminated:
      up to the first zero byte. */
  function ScanLength(s: seq<byte>): (n: nat)
    ensures n <= |s| && Nul !in s[..n]
    ensures n < |s| ==> s[n] == Nul
  {
    match IndexOf(s, Nul)
    case None => |s|
    case Some(i) => i
  }

  /** The bytes the scan sees. */
  function Visible(s: seq<byte>): seq<byte>
  {
    s[..ScanLength(s)]
  }

  /** `strchr(buf, '\n')` on a buffer holding `s` and NUL-terminated right
      after it: the first newline, provided no zero byte comes before it. */
  function Strchr(s: seq<byte>): (r: Option<nat>)
    ensures r.Some? ==> r.value < |s| && s[r.value] == Newline
    ensures r.Some? ==> Newline !in s[..r.value] && Nul !in s[..r.value]
    ensures r.None? <==> Newline !in Visible(s)
  {
    var v := Visible(s);
    match IndexOf(v, Newline)
    case None => None
    case Some(i) =>
      assert s[..i] == v[..i];
      Some(i)
  }

  /** Without zero bytes the scan sees the whole occupied region. */
  lemma StrchrWithoutNul(s: seq<byte>)
    requires Nul !in s
    ensures Visible(s) == s
    ensures Strchr(s) == IndexOf(s, Newline)
  {
  }

  /** The concatenation of a sequence of packets. */
  function Concat(ss: seq<seq<byte>>): seq<byte>
  {
    if |ss| == 0 then [] else ss[0] + Concat(ss[1..])
  }

  lemma {:induction false} ConcatAppend(a: seq<seq<byte>>, b: seq<seq<byte>>)
    ensures Concat(a + b) == Concat(a) + Concat(b)
  {
    if |a| == 0 {
      assert a + b == b;
    } else {
      assert (a + b)[1..] == a[1..] + b;
      ConcatAppend(a[1..], b);
    }
  }

  /** Sequence algebra, stated once so that larger proofs can cite it. */
  lemma AppendAssoc(a: seq<byte>, b: seq<byte>, c: seq<byte>)
    ensures (a + b) + c == a + (b + c)
  {
  }

  lemma SplitAppend(a: seq<byte>, b: seq<byte>)
    ensures (a + b)[..|a|] == a && (a + b)[|a|..] == b
  {
  }

  lemma PrefixGrows(s: seq<byte>, a: nat, b: nat)
    requires a <= b <= |s|
    ensures s[..a] + s[a..b] == s[..b]
  {
  }

  lemma ConcatCons(p: seq<byte>, ps: seq<seq<byte>>)
    ensures Concat([p] + ps) == p + Concat(ps)
  {
    assert ([p] + ps)[1..] == ps;
  }

  /** The data file `/var/tmp/aesdsocketdata`: its content, or removed. */
  datatype DataFile = Absent | Present(content: seq<byte>)

  /** The bytes of the data file; a file that does not exist reads as empty
      (to `O_APPEND | O_CREAT` and to `a+` alike). */
  function Content(f: DataFile): seq<byte>
  {
    if f.Present? then f.content else []
  }
}

=== FILE: capacity.dfy ===
/** The growth rule of a connection's reassembly buffer in the current
    server: the first allocation is `MAX_LENGTH`, and each later growth
    doubles until the occupied bytes, the new chunk and the terminator fit. */
module Capacity {
  import opened Buffers

  /** `r` is `c` doubled zero or more times. */
  predicate DoublingOf(r: nat, c: nat)
    decreases r
  {
    r == c || (r > c && r % 2 == 0 && DoublingOf(r / 2, c))
  }

  /** The capacities a buffer can have: 0 before its first allocation,
      `MAX_LENGTH` doubled some number of times after it. */
  predicate ValidCapacity(c: nat)
  {
    c == 0 || DoublingOf(c, MaxLength)
  }

  function Pow2(k: nat): (p: nat)
    ensures p >= 1
  {
    if k == 0 then 1 else 2 * Pow2(k - 1)
  }

  lemma {:induction false} DoublingOfHalf(r: nat, c: nat)
    requires c > 0 && DoublingOf(r, 2 * c)
    ensures DoublingOf(r, c)
    decreases r
  {
    if r == 2 * c {
      assert DoublingOf(r / 2, c);
    } else {
      DoublingOfHalf(r / 2, c);
    }
  }

  lemma {:induction false} DoublingOfTransitive(r: nat, c: nat, d: nat)
    requires DoublingOf(r, c) && DoublingOf(c, d)
    ensures DoublingOf(r, d)
    decreases r
  {
    if r != c {
      DoublingOfTransitive(r / 2, c, d);
    }
  }

  lemma {:induction false} DoublingOfPower(c: nat, k: nat)
    requires c > 0
    ensures DoublingOf(c * Pow2(k), c)
  {
    if k > 0 {
      DoublingOfPower(c, k - 1);
      var x := c * Pow2(k - 1);
      assert c * Pow2(k) == 2 * x;
      assert (2 * x) / 2 == x;
    }
  }

  lemma {:induction false} PowerOfDoubling(r: nat, c: nat) returns (k: nat)
    requires DoublingOf(r, c)
    ensures r == c * Pow2(k)
    decreases r
  {
    if r == c {
      k := 0;
    } else {
      var j := PowerOfDoubling(r / 2, c);
      k := j + 1;
      assert c * Pow2(k) == 2 * (c * Pow2(j));
    }
  }

  /** The capacities the rule produces are exactly 0 and 1024 * 2^k. */
  lemma CapacityForm(c: nat)
    ensures ValidCapacity(c) <==> c == 0 || exists k: nat :: c == MaxLength * Pow2(k)
  {
    if ValidCapacity(c) && c != 0 {
      var k := PowerOfDoubling(c, MaxLength);
    }
    if c != 0 && exists k: nat :: c == MaxLength * Pow2(k) {
      var k: nat :| c == MaxLength * Pow2(k);
      DoublingOfPower(MaxLength, k);
    }
  }

  /** The smallest doubling of `c` that is at least `need` (or `c` itself
      when it already suffices). */
  function DoubleUntil(c: nat, need: nat): (r: nat)
    requires c > 0
    ensures need <= r && DoublingOf(r, c)
    ensures r == c || r < 2 * need
    decreases if c < need then need - c else 0
  {
    if need <= c then c
    else
      var r := DoubleUntil(2 * c, need);
      DoublingOfHalf(r, c);
      r
  }

  /** The first size tried: a fresh buffer gets `MAX_LENGTH`, an allocated
      one twice its capacity. */
  function FirstCandidate(capacity: nat): nat
  {
    if capacity == 0 then MaxLength else 2 * capacity
  }

  lemma GrownStaysValid(capacity: nat, r: nat)
    requires DoublingOf(r, FirstCandidate(capacity))
    ensures ValidCapacity(capacity) ==> ValidCapacity(r)
  {
    if capacity > 0 && ValidCapacity(capacity) {
      DoublingOfHalf(r, capacity);
      DoublingOfTransitive(r, capacity, MaxLength);
    }
  }

  datatype Growth = Fits | Grown(capacity: nat) | OutOfMemory

  /** The growth step taken before appending a received chunk, when `need`
      (`data_len + recv_len + 1`) bytes must fit; `allocOk` is whether
      `realloc` succeeds if it is called. */
  function Grow(capacity: nat, need: nat, allocOk: bool): (g: Growth)
    ensures g.Fits? <==> need <= capacity
    ensures g.OutOfMemory? <==> capacity < need && !allocOk
    ensures g.Grown? ==> need <= g.capacity && capacity < g.capacity
    ensures g.Grown? ==> DoublingOf(g.capacity, FirstCandidate(capacity))
    ensures g.Grown? ==> g.capacity == FirstCandidate(capacity) || g.capacity < 2 * need
    ensures g.Grown? && ValidCapacity(capacity) ==> ValidCapacity(g.capacity)
  {
    if need <= capacity then Fits
    else if !allocOk then OutOfMemory
    else
      var r := DoubleUntil(FirstCandidate(capacity), need);
      GrownStaysValid(capacity, r);
      Grown(r)
  }
}

=== FILE: connection.dfy ===
/** One connection of the current server (`server/aesdsocket.c`, the body
    of its accept loop): chunks from `recv` are appended to a growing
    reassembly buffer, every complete packet is appended to the data file,
    and after each packet the whole file is sent back. The outcomes of the
    system calls are inputs. Line numbers below refer to that file. */
module Connection {
  import opened Buffers
  import opened Capacity
  import opened Framing
  import opened Transmit

  /** Why the connection was closed. */
  datatype CloseReason =
    | PeerClosed                 // recv returned 0
    | RecvFailed                 // recv failed with an error other than EINTR
    | ShutdownDuringRecv         // recv interrupted while the exit flag was set
    | AppendOpenFailed           // open of the data file for appending failed
    | ShortWrite                 // write stored fewer bytes than the packet
    | ReadOpenFailed             // open of the data file for reading failed
    | EchoAborted(why: Abort)    // the echo's read or send loop gave up

  /** What one `recv` call returned. An empty chunk is the orderly shutdown
      (`recv_len == 0`); `allocOk` is whether `realloc` succeeds should the
      chunk not fit. */
  datatype RecvEvent =
    | Received(chunk: seq<byte>, allocOk: bool)
    | RecvInterrupted(exitFlag: bool)
    | RecvError

  /** How the append of one packet went: `AppendShort(n)` is a `write` that
      returned `n` bytes, or -1 as `n == 0`, short of the packet. */
  datatype AppendResult = AppendOk | AppendOpenFails | AppendShort(n: nat)

  /** The outcomes of the file and socket calls made for one packet. */
  datatype PacketIo = PacketIo(append: AppendResult, readOpens: bool, readFault: Option<nat>, replies: seq<SendReply>)

  /** Every call made for a packet succeeds at once. */
  const Healthy := PacketIo(AppendOk, true, None, [])

  /** The file after an append of `bytes`: created if it was missing. */
  function Appended(f: DataFile, bytes: seq<byte>): (g: DataFile)
    ensures g.Present? && Content(g) == Content(f) + bytes
  {
    Present(Content(f) + bytes)
  }

  /** The file after the packets `ps` were appended one by one. */
  function Commit(f: DataFile, ps: seq<seq<byte>>): DataFile
    decreases |ps|
  {
    if |ps| == 0 then f else Commit(Appended(f, ps[0]), ps[1..])
  }

  lemma {:induction false} CommitContent(f: DataFile, ps: seq<seq<byte>>)
    ensures Content(Commit(f, ps)) == Content(f) + Concat(ps)
    ensures |ps| > 0 ==> Commit(f, ps).Present?
    ensures |ps| == 0 ==> Commit(f, ps) == f
    decreases |ps|
  {
    if |ps| > 0 {
      CommitContent(Appended(f, ps[0]), ps[1..]);
      ConcatCons(ps[0], ps[1..]);
      assert ps == [ps[0]] + ps[1..];
      AppendAssoc(Content(f), ps[0], Concat(ps[1..]));
    }
  }

  lemma {:induction false} CommitAppend(f: DataFile, a: seq<seq<byte>>, b: seq<seq<byte>>)
    ensures Commit(f, a + b) == Commit(Commit(f, a), b)
    decreases |a|
  {
    if |a| == 0 {
      assert a + b == b;
    } else {
      assert (a + b)[1..] == a[1..] + b;
      CommitAppend(Appended(f, a[0]), a[1..], b);
    }
  }

  /** The echoes a client receives while the packets `ps` are committed to a
      log that held `log`: after each packet, the whole log so far. */
  function Snapshots(log: seq<byte>, ps: seq<seq<byte>>): seq<seq<byte>>
    decreases |ps|
  {
    if |ps| == 0 then [] else [log + ps[0]] + Snapshots(log + ps[0], ps[1..])
  }

  /** The `i`-th echo is the log as it stood with packet `i` committed. */
  lemma {:induction false} SnapshotAt(log: seq<byte>, ps: seq<seq<byte>>, i: nat)
    requires i < |ps|
    ensures |Snapshots(log, ps)| == |ps|
    ensures Snapshots(log, ps)[i] == log + Concat(ps[..i + 1])
    decreases i
  {
    SnapshotsLength(log, ps);
    var rest := Snapshots(log + ps[0], ps[1..]);
    if i == 0 {
      assert ps[..1] == [ps[0]];
      assert Concat([ps[0]]) == ps[0] + Concat([]);
      assert ps[0] + [] == ps[0];
    } else {
      SnapshotAt(log + ps[0], ps[1..], i - 1);
      assert Snapshots(log, ps)[i] == rest[i - 1];
      assert ps[..i + 1] == [ps[0]] + ps[1..][..i];
      ConcatCons(ps[0], ps[1..][..i]);
      AppendAssoc(log, ps[0], Concat(ps[1..][..i]));
    }
  }

  lemma {:induction false} SnapshotsLength(log: seq<byte>, ps: seq<seq<byte>>)
    ensures |Snapshots(log, ps)| == |ps|
    decreases |ps|
  {
    if |ps| > 0 {
      SnapshotsLength(log + ps[0], ps[1..]);
    }
  }

  lemma {:induction false} SnapshotsAppend(log: seq<byte>, a: seq<seq<byte>>, b: seq<seq<byte>>)
    ensures Snapshots(log, a + b) == Snapshots(log, a) + Snapshots(log + Concat(a), b)
    decreases |a|
  {
    if |a| == 0 {
      assert a + b == b;
      assert log + [] == log;
    } else {
      assert (a + b)[1..] == a[1..] + b;
      SnapshotsAppend(log + a[0], a[1..], b);
      ConcatCons(a[0], a[1..]);
      assert a == [a[0]] + a[1..];
      AppendAssoc(log, a[0], Concat(a[1..]));
    }
  }

  /** What committing one packet did: the file afterwards, the bytes the
      echo put on the wire, and the reason the connection closes, if it does. */
  datatype Committed = Committed(file: DataFile, echo: seq<byte>, failure: Option<CloseReason>)

  /** Lines 217-261: append the packet to the data file, then send the whole
      file back. A short write has stored part of the packet (`O_APPEND`)
      before the connection is closed. */
  function CommitEcho(file: DataFile, packet: seq<byte>, io: PacketIo): (c: Committed)
    requires |packet| > 0
  {
    match io.append
    case AppendOpenFails => Committed(file, [], Some(AppendOpenFailed))
    case AppendShort(n) => Committed(Appended(file, packet[..Min(n, |packet| - 1)]), [], Some(ShortWrite))
    case AppendOk =>
      var f := Appended(file, packet);
      if !io.readOpens then Committed(f, [], Some(ReadOpenFailed))
      else
        var e := Echo(Content(f), io.readFault, io.replies);
        Committed(f, e.wire, if e.ending.Aborted? then Some(EchoAborted(e.ending.why)) else None)
  }

  /** The append either stores the whole packet, or it closes the connection
      having stored a strict prefix of it and echoed nothing; a failure
      after the append sends at most a prefix of the new log, and without a
      failure the echo is the whole log. */
  lemma CommitEchoSpec(file: DataFile, packet: seq<byte>, io: PacketIo)
    requires |packet| > 0
    ensures var c := CommitEcho(file, packet, io);
            && (io.append.AppendOk? <==> c.file == Appended(file, packet))
            && (io.append == AppendOpenFails ==> c == Committed(file, [], Some(AppendOpenFailed)))
            && (io.append.AppendShort? ==>
                  c.echo == [] && c.failure == Some(ShortWrite) &&
                  exists k :: 0 <= k < |packet| && c.file == Appended(file, packet[..k]))
            && (!io.append.AppendOk? || !io.readOpens ==> c.echo == [])
            && (c.failure.None? <==> io.append.AppendOk? && io.readOpens && Echo(Content(c.file), io.readFault, io.replies).ending.Complete?)
            && (c.failure.None? ==> c.echo == Content(file) + packet)
            && c.echo <= Content(c.file)
  {
    var c := CommitEcho(file, packet, io);
    if io.append.AppendShort? {
      var k := Min(io.append.n, |packet| - 1);
      assert c.file == Appended(file, packet[..k]);
    }
    if io.append.AppendOk? && io.readOpens {
      EchoSendsLogPrefix(Content(c.file), 0, 0, io.readFault, io.replies);
      assert Content(c.file)[0..] == Content(c.file);
    }
  }

  /** The script of packet outcomes, read one entry per packet; once it is
      exhausted every call succeeds. */
  function NextIo(ios: seq<PacketIo>): PacketIo
  {
    if |ios| == 0 then Healthy else ios[0]
  }

  function RestIo(ios: seq<PacketIo>): seq<PacketIo>
  {
    if |ios| == 0 then [] else ios[1..]
  }

  /** What the inner loop did with a buffer. */
  datatype Processed = Processed(buf: seq<byte>, file: DataFile, echoes: seq<seq<byte>>, ios: seq<PacketIo>,
                                 failure: Option<CloseReason>)

  /** Lines 212-268: while the scan finds a newline, commit and echo the
      packet before it and shift the rest to the front. */
  function DrainIo(buf: seq<byte>, file: DataFile, ios: seq<PacketIo>): (r: Processed)
    decreases |buf|
  {
    match Extract(buf)
    case None => Processed(buf, file, [], ios, None)
    case Some(cut) =>
      var c := CommitEcho(file, cut.packet, NextIo(ios));
      if c.failure.Some? then Processed(buf, c.file, [c.echo], RestIo(ios), c.failure)
      else
        var r := DrainIo(cut.rest, c.file, RestIo(ios));
        Processed(r.buf, r.file, [c.echo] + r.echoes, r.ios, r.failure)
  }

  /** Without a failure, the inner loop commits exactly the packets `Drain`
      finds, echoes the log after each of them, and keeps the fragment. */
  lemma {:induction false} DrainIoCommitsPackets(buf: seq<byte>, file: DataFile, ios: seq<PacketIo>)
    ensures var r := DrainIo(buf, file, ios);
            var d := Drain(buf);
            r.failure.None? ==>
              r.buf == d.rest && r.file == Commit(file, d.packets) &&
              r.echoes == Snapshots(Content(file), d.packets)
    decreases |buf|
  {
    var r := DrainIo(buf, file, ios);
    match Extract(buf)
    case None =>
    case Some(cut) =>
      var c := CommitEcho(file, cut.packet, NextIo(ios));
      if c.failure.None? {
        CommitEchoSpec(file, cut.packet, NextIo(ios));
        DrainIoCommitsPackets(cut.rest, c.file, RestIo(ios));
        var d := Drain(cut.rest);
        assert Drain(buf) == Framed([cut.packet] + d.packets, d.rest);
        assert ([cut.packet] + d.packets)[1..] == d.packets;
      }
  }

  /** Whatever fails, the log only ever grows by a prefix of the packets the
      buffer holds: no fragment and nothing beyond the failing packet is
      logged. */
  lemma {:induction false} DrainIoLogsPrefix(buf: seq<byte>, file: DataFile, ios: seq<PacketIo>)
    ensures var r := DrainIo(buf, file, ios);
            Content(file) <= Content(r.file) <= Content(file) + Concat(Drain(buf).packets)
    decreases |buf|
  {
    match Extract(buf)
    case None =>
      assert Content(file) + [] == Content(file);
    case Some(cut) =>
      var c := CommitEcho(file, cut.packet, NextIo(ios));
      var d := Drain(cut.rest);
      assert Drain(buf).packets == [cut.packet] + d.packets;
      ConcatCons(cut.packet, d.packets);
      CommitLogsPrefix(file, cut.packet, NextIo(ios));
      if c.failure.None? {
        DrainIoLogsPrefix(cut.rest, c.file, RestIo(ios));
        ChainPrefix(Content(file), cut.packet, Concat(d.packets), Content(DrainIo(cut.rest, c.file, RestIo(ios)).file));
      } else {
        CommitStepPrefix(Content(file), cut.packet, Concat(d.packets), Content(c.file));
      }
  }

  /** One commit grows the log by a prefix of the packet, by all of it when
      nothing fails. */
  lemma CommitLogsPrefix(file: DataFile, packet: seq<byte>, io: PacketIo)
    requires |packet| > 0
    ensures var c := CommitEcho(file, packet, io);
            && Content(file) <= Content(c.file) <= Content(file) + packet
            && (c.failure.None? ==> Content(c.file) == Content(file) + packet)
  {
    var c := CommitEcho(file, packet, io);
    if io.append.AppendShort? {
      var k := Min(io.append.n, |packet| - 1);
      assert Content(c.file) == Content(file) + packet[..k];
      assert (Content(file) + packet)[..|Content(file)| + k] == Content(file) + packet[..k];
    }
  }

  lemma CommitStepPrefix(log: seq<byte>, packet: seq<byte>, more: seq<byte>, now: seq<byte>)
    requires log <= now <= log + packet
    ensures log <= now <= log + (packet + more)
  {
    AppendAssoc(log, packet, more);
    assert (log + packet + more)[..|now|] == (log + packet)[..|now|];
  }

  lemma ChainPrefix(log: seq<byte>, packet: seq<byte>, more: seq<byte>, now: seq<byte>)
    requires log + packet <= now <= log + packet + more
    ensures log <= now <= log + (packet + more)
  {
    AppendAssoc(log, packet, more);
    assert now[..|log|] == (log + packet)[..|log|];
  }

  /** With every call succeeding, the inner loop never closes the connection
      and consumes no script. */
  lemma {:induction false} DrainIoHealthy(buf: seq<byte>, file: DataFile)
    ensures DrainIo(buf, file, []).failure.None? && DrainIo(buf, file, []).ios == []
    decreases |buf|
  {
    match Extract(buf)
    case None =>
    case Some(cut) =>
      CommitHealthy(file, cut.packet);
      DrainIoHealthy(cut.rest, Appended(file, cut.packet));
  }

  /** A packet whose calls all succeed is committed and echoed in full. */
  lemma CommitHealthy(file: DataFile, packet: seq<byte>)
    requires |packet| > 0
    ensures CommitEcho(file, packet, Healthy) == Committed(Appended(file, packet), Content(file) + packet, None)
  {
    EchoHealthy(Content(file) + packet, 0, 0);
    assert (Content(file) + packet)[0..] == Content(file) + packet;
  }

  /** The state of one connection: the occupied bytes of the reassembly
      buffer and its capacity, the data file, the echoes sent so far (one
      per packet, in order), the remaining script of per-packet outcomes, and
      whether and why the connection was closed. */
  datatype Session = Session(buf: seq<byte>, capacity: nat, file: DataFile, echoes: seq<seq<byte>>,
                             ios: seq<PacketIo>, closed: Option<CloseReason>)

  /** Lines 168-170: no buffer is allocated yet. */
  function Open(file: DataFile, ios: seq<PacketIo>): Session
  {
    Session([], 0, file, [], ios, None)
  }

  /** The buffer holds its bytes and the terminator, in a capacity the growth
      rule can produce. */
  predicate Sized(s: Session)
  {
    ValidCapacity(s.capacity) && (|s.buf| < s.capacity || (s.capacity == 0 && s.buf == []))
  }

  /** Lines 208-268 once the chunk has room: append it, then drain. */
  function Absorb(s: Session, chunk: seq<byte>): Session
  {
    var r := DrainIo(s.buf + chunk, s.file, s.ios);
    s.(buf := r.buf, file := r.file, echoes := s.echoes + r.echoes, ios := r.ios, closed := r.failure)
  }

  /** Lines 191-206: make room for a chunk, or drop it together with the
      bytes accumulated so far when `realloc` fails. */
  function Take(s: Session, chunk: seq<byte>, allocOk: bool): Session
  {
    match Grow(s.capacity, |s.buf| + |chunk| + 1, allocOk)
    case Fits => Absorb(s, chunk)
    case Grown(c) => Absorb(s.(capacity := c), chunk)
    case OutOfMemory => s.(buf := [])
  }

  /** One turn of the receive loop, lines 173-268. */
  function Receive(s: Session, ev: RecvEvent): Session
  {
    match ev
    case Received(chunk, allocOk) =>
      if |chunk| == 0 then s.(closed := Some(PeerClosed))
      else Take(s, chunk, allocOk)
    case RecvInterrupted(exitFlag) => if exitFlag then s.(closed := Some(ShutdownDuringRecv)) else s
    case RecvError => s.(closed := Some(RecvFailed))
  }

  /** The receive loop over a script of `recv` results, until the connection
      closes or the script ends. */
  function Serve(s: Session, events: seq<RecvEvent>): Session
    decreases |events|
  {
    if s.closed.Some? || |events| == 0 then s else Serve(Receive(s, events[0]), events[1..])
  }

  /** The buffer stays sized, its capacity never shrinks, and when a chunk is
      copied in, the occupied bytes, the chunk and the terminator fit. */
  lemma ReceiveKeepsSized(s: Session, ev: RecvEvent)
    requires Sized(s)
    ensures Sized(Receive(s, ev))
    ensures s.capacity <= Receive(s, ev).capacity
    ensures ev.Received? && |ev.chunk| > 0 ==>
              var g := Grow(s.capacity, |s.buf| + |ev.chunk| + 1, ev.allocOk);
              g.OutOfMemory? || |s.buf| + |ev.chunk| + 1 <= (if g.Grown? then g.capacity else s.capacity)
  {
    if ev.Received? && |ev.chunk| > 0 {
      var g := Grow(s.capacity, |s.buf| + |ev.chunk| + 1, ev.allocOk);
      if !g.OutOfMemory? {
        var c := if g.Grown? then g.capacity else s.capacity;
        var r := DrainIo(s.buf + ev.chunk, s.file, s.ios);
        DrainIoShrinks(s.buf + ev.chunk, s.file, s.ios);
        assert Receive(s, ev).buf == r.buf;
      }
    }
  }

  /** The inner loop only removes bytes from the buffer. */
  lemma {:induction false} DrainIoShrinks(buf: seq<byte>, file: DataFile, ios: seq<PacketIo>)
    ensures |DrainIo(buf, file, ios).buf| <= |buf|
    decreases |buf|
  {
    match Extract(buf)
    case None =>
    case Some(cut) =>
      var c := CommitEcho(file, cut.packet, NextIo(ios));
      if c.failure.None? {
        DrainIoShrinks(cut.rest, c.file, RestIo(ios));
      }
  }

  /** The inner loop only exits once the scan sees no newline, so an open
      connection's buffer never holds a packet it could have taken. */
  lemma ReceiveKeepsDrained(s: Session, ev: RecvEvent)
    requires Newline !in Visible(s.buf)
    ensures Receive(s, ev).closed.None? ==> Newline !in Visible(Receive(s, ev).buf)
  {
    if ev.Received? && |ev.chunk| > 0 {
      DrainIoCommitsPackets(s.buf + ev.chunk, s.file, s.ios);
    }
  }

  /** How each kind of `recv` result is dispatched: an orderly shutdown, an
      error, or an interruption with the exit flag set closes the connection
      and changes nothing else; an interruption with the flag clear is
      retried; a chunk that cannot get room is dropped together with the
      accumulated bytes; only an absorbed chunk touches the file or the
      client. */
  lemma ReceiveDispatch(s: Session, ev: RecvEvent)
    ensures var r := Receive(s, ev);
            && (ev == RecvInterrupted(false) ==> r == s)
            && (ev.Received? && |ev.chunk| == 0 ==> r == s.(closed := Some(PeerClosed)))
            && (ev == RecvInterrupted(true) ==> r == s.(closed := Some(ShutdownDuringRecv)))
            && (ev == RecvError ==> r == s.(closed := Some(RecvFailed)))
            && (ev.Received? && |ev.chunk| > 0 && |s.buf| + |ev.chunk| + 1 > s.capacity && !ev.allocOk ==>
                  r == s.(buf := []))
            && (r.file != s.file || r.echoes != s.echoes ==>
                  ev.Received? && |ev.chunk| > 0 && (|s.buf| + |ev.chunk| + 1 <= s.capacity || ev.allocOk))
  {
  }

  /** Every byte a chunk adds to the log belongs to a packet of the buffer
      the chunk completes; otherwise the log is left alone. */
  lemma ReceiveLogsPackets(s: Session, ev: RecvEvent)
    ensures var r := Receive(s, ev);
            && Content(s.file) <= Content(r.file)
            && (ev.Received? ==> Content(r.file) <= Content(s.file) + Concat(Drain(s.buf + ev.chunk).packets))
  {
    if ev.Received? && |ev.chunk| > 0 {
      DrainIoLogsPrefix(s.buf + ev.chunk, s.file, s.ios);
    }
    if ev.Received? {
      assert Content(s.file) <= Content(s.file) + Concat(Drain(s.buf + ev.chunk).packets);
    }
  }

  /** A connection that ended because the exit flag was seen set. */
  predicate SawShutdown(closed: Option<CloseReason>)
  {
    closed == Some(ShutdownDuringRecv) || closed == Some(EchoAborted(ShutdownDuringSend))
  }

  /** No scripted `send` reply is an interruption seen with the exit flag
      set. */
  predicate QuietIos(ios: seq<PacketIo>)
  {
    forall i :: 0 <= i < |ios| ==> SendInterrupted(true) !in ios[i].replies
  }

  /** A packet whose `send` replies never see the exit flag set is not
      where a shutdown is noticed. */
  lemma CommitEchoFlagClear(file: DataFile, packet: seq<byte>, io: PacketIo)
    requires |packet| > 0 && SendInterrupted(true) !in io.replies
    ensures !SawShutdown(CommitEcho(file, packet, io).failure)
  {
    if io.append.AppendOk? && io.readOpens {
      EchoFlagClear(Content(Appended(file, packet)), 0, 0, io.readFault, io.replies);
    }
  }

  /** Nor is the inner loop, and what it leaves of the script stays quiet. */
  lemma {:induction false} DrainIoFlagClear(buf: seq<byte>, file: DataFile, ios: seq<PacketIo>)
    requires QuietIos(ios)
    ensures var r := DrainIo(buf, file, ios);
            QuietIos(r.ios) && !SawShutdown(r.failure)
    decreases |buf|
  {
    match Extract(buf)
    case None =>
    case Some(cut) =>
      var io := NextIo(ios);
      CommitEchoFlagClear(file, cut.packet, io);
      assert QuietIos(RestIo(ios)) by {
        if |ios| > 0 {
          forall i | 0 <= i < |ios| - 1
            ensures SendInterrupted(true) !in ios[1..][i].replies
          {
            assert ios[1..][i] == ios[i + 1];
          }
        }
      }
      var c := CommitEcho(file, cut.packet, io);
      if c.failure.None? {
        DrainIoFlagClear(cut.rest, c.file, RestIo(ios));
      }
  }

  /** A `recv` result that is not an interruption with the exit flag set,
      on a connection whose replies never see the flag set, does not close
      it for a shutdown. */
  lemma ReceiveFlagClear(s: Session, ev: RecvEvent)
    requires s.closed.None? && QuietIos(s.ios) && ev != RecvInterrupted(true)
    ensures var r := Receive(s, ev);
            QuietIos(r.ios) && !SawShutdown(r.closed)
  {
    if ev.Received? && |ev.chunk| > 0 {
      DrainIoFlagClear(s.buf + ev.chunk, s.file, s.ios);
    }
  }

  /** Over a whole connection: a shutdown is only ever noticed where the
      script shows the exit flag set. */
  lemma {:induction false} ServeFlagClear(s: Session, events: seq<RecvEvent>)
    requires !SawShutdown(s.closed) && QuietIos(s.ios) && RecvInterrupted(true) !in events
    ensures !SawShutdown(Serve(s, events).closed)
    decreases |events|
  {
    if s.closed.None? && |events| > 0 {
      ReceiveFlagClear(s, events[0]);
      assert RecvInterrupted(true) !in events[1..] by {
        assert events == [events[0]] + events[1..];
      }
      ServeFlagClear(Receive(s, events[0]), events[1..]);
    }
  }

  /** `Serve` is a fold: serving a script in two parts is serving it whole. */
  lemma {:induction false} ServeAppend(s: Session, a: seq<RecvEvent>, b: seq<RecvEvent>)
    ensures Serve(s, a + b) == Serve(Serve(s, a), b)
    decreases |a|
  {
    if s.closed.None? && |a| > 0 {
      assert (a + b)[1..] == a[1..] + b;
      ServeAppend(Receive(s, a[0]), a[1..], b);
    } else if |a| == 0 {
      assert a + b == b;
    }
  }

  /** The buffer stays sized and its capacity only grows over a whole
      connection. */
  lemma {:induction false} ServeKeepsSized(s: Session, events: seq<RecvEvent>)
    requires Sized(s)
    ensures Sized(Serve(s, events)) && s.capacity <= Serve(s, events).capacity
    decreases |events|
  {
    if s.closed.None? && |events| > 0 {
      ReceiveKeepsSized(s, events[0]);
      ServeKeepsSized(Receive(s, events[0]), events[1..]);
    }
  }

  /** A `recv` result a connection shrugs off in a healthy environment: a
      chunk that gets room, or an interruption with the exit flag clear. */
  predicate Benign(ev: RecvEvent)
  {
    (ev.Received? && |ev.chunk| > 0 && ev.allocOk) || ev == RecvInterrupted(false)
  }

  /** The bytes a script of `recv` results delivers, in order. */
  function Chunks(events: seq<RecvEvent>): seq<byte>
    decreases |events|
  {
    if |events| == 0 then []
    else (if events[0].Received? then events[0].chunk else []) + Chunks(events[1..])
  }

  /** One absorbed chunk in a healthy environment: the packets it completes
      are committed and echoed, and the rest stays in the buffer. */
  lemma ReceiveHealthy(s: Session, ev: RecvEvent)
    requires s.closed.None? && s.ios == [] && Benign(ev) && ev.Received?
    ensures var r := Receive(s, ev);
            var d := Drain(s.buf + ev.chunk);
            && r.closed.None? && r.ios == [] && r.buf == d.rest && r.file == Commit(s.file, d.packets)
            && r.echoes == s.echoes + Snapshots(Content(s.file), d.packets)
  {
    DrainIoHealthy(s.buf + ev.chunk, s.file);
    DrainIoCommitsPackets(s.buf + ev.chunk, s.file, []);
  }

  /** Chunking does not matter: in a healthy environment a connection logs
      and echoes exactly the packets of the concatenated stream, however it
      was split into chunks, and keeps the trailing fragment buffered. */
  lemma {:induction false} ServeHealthy(s: Session, events: seq<RecvEvent>)
    requires s.closed.None? && s.ios == [] && Newline !in Visible(s.buf)
    requires forall i :: 0 <= i < |events| ==> Benign(events[i])
    ensures var r := Serve(s, events);
            var d := Drain(s.buf + Chunks(events));
            && r.closed.None? && r.ios == [] && r.buf == d.rest && r.file == Commit(s.file, d.packets)
            && r.echoes == s.echoes + Snapshots(Content(s.file), d.packets)
    decreases |events|
  {
    if |events| == 0 {
      assert s.buf + [] == s.buf;
      DrainUnique(s.buf, [], s.buf);
      assert s.echoes + [] == s.echoes;
    } else {
      var ev := events[0];
      var s1 := Receive(s, ev);
      var c := if ev.Received? then ev.chunk else [];
      assert Chunks(events) == c + Chunks(events[1..]);
      if ev.Received? {
        ReceiveHealthy(s, ev);
      } else {
        assert s1 == s;
        assert s.buf + [] == s.buf;
        DrainUnique(s.buf, [], s.buf);
      }
      var d1 := Drain(s.buf + c);
      ServeHealthy(s1, events[1..]);
      HealthyStepsCompose(s, s1, c, Chunks(events[1..]), Serve(s1, events[1..]));
    }
  }

  /** Gluing one healthy receive to the healthy rest of the connection. */
  lemma HealthyStepsCompose(s: Session, s1: Session, c: seq<byte>, more: seq<byte>, r: Session)
    requires var d1 := Drain(s.buf + c);
             s1.buf == d1.rest && s1.file == Commit(s.file, d1.packets) &&
             s1.echoes == s.echoes + Snapshots(Content(s.file), d1.packets)
    requires var d2 := Drain(s1.buf + more);
             r.buf == d2.rest && r.file == Commit(s1.file, d2.packets) &&
             r.echoes == s1.echoes + Snapshots(Content(s1.file), d2.packets)
    ensures var d := Drain(s.buf + (c + more));
            r.buf == d.rest && r.file == Commit(s.file, d.packets) &&
            r.echoes == s.echoes + Snapshots(Content(s.file), d.packets)
  {
    var d1 := Drain(s.buf + c);
    var d2 := Drain(s1.buf + more);
    AppendAssoc(s.buf, c, more);
    DrainAppend(s.buf + c, more);
    assert Drain(s.buf + (c + more)) == Framed(d1.packets + d2.packets, d2.rest);
    ComposeFile(s.file, d1.packets, d2.packets);
    ComposeEchoes(s.echoes, Content(s.file), d1.packets, d2.packets);
  }

  lemma ComposeFile(f: DataFile, p1: seq<seq<byte>>, p2: seq<seq<byte>>)
    ensures Commit(f, p1 + p2) == Commit(Commit(f, p1), p2)
    ensures Content(Commit(f, p1)) == Content(f) + Concat(p1)
  {
    CommitAppend(f, p1, p2);
    CommitContent(f, p1);
  }

  lemma ComposeEchoes(echoes: seq<seq<byte>>, log: seq<byte>, p1: seq<seq<byte>>, p2: seq<seq<byte>>)
    ensures echoes + Snapshots(log, p1 + p2) ==
            (echoes + Snapshots(log, p1)) + Snapshots(log + Concat(p1), p2)
  {
    SnapshotsAppend(log, p1, p2);
  }

  /** Two healthy connections whose chunks concatenate to the same stream end
      in the same state, capacity aside. */
  lemma ChunkingIndependence(file: DataFile, a: seq<RecvEvent>, b: seq<RecvEvent>)
    requires forall i :: 0 <= i < |a| ==> Benign(a[i])
    requires forall i :: 0 <= i < |b| ==> Benign(b[i])
    requires Chunks(a) == Chunks(b)
    ensures Serve(Open(file, []), a).(capacity := 0) == Serve(Open(file, []), b).(capacity := 0)
  {
    assert Visible([]) == [];
    ServeHealthy(Open(file, []), a);
    ServeHealthy(Open(file, []), b);
  }

  /** In a healthy connection (every chunk gets room, so no `realloc`
      failure discards bytes), when the peer shuts down the trailing
      fragment is dropped: the log holds exactly the complete packets of
      the stream. */
  lemma PeerCloseDropsFragment(file: DataFile, events: seq<RecvEvent>, allocOk: bool)
    requires forall i :: 0 <= i < |events| ==> Benign(events[i])
    ensures var r := Serve(Open(file, []), events + [Received([], allocOk)]);
            var d := Drain(Chunks(events));
            && r.closed == Some(PeerClosed)
            && Content(r.file) == Content(file) + Concat(d.packets)
            && Content(r.file) + d.rest == Content(file) + Chunks(events)
  {
    var s := Open(file, []);
    ServeOpenDrains(file, events);
    ServeAppend(s, events, [Received([], allocOk)]);
    var m := Serve(s, events);
    assert Serve(m, [Received([], allocOk)]) == Serve(Receive(m, Received([], allocOk)), []);
    var d := Drain(Chunks(events));
    CommitContent(file, d.packets);
    DrainReassembles(Chunks(events));
    AppendAssoc(Content(file), Concat(d.packets), d.rest);
  }

  /** A healthy connection whose stream is the packets `ps` followed by a
      fragment in which the scan sees no newline logs and echoes exactly
      `ps`, and keeps the fragment. */
  lemma ServeFromPackets(file: DataFile, events: seq<RecvEvent>, ps: seq<seq<byte>>, rest: seq<byte>)
    requires forall i :: 0 <= i < |events| ==> Benign(events[i])
    requires Chunks(events) == Concat(ps) + rest
    requires AllPackets(ps) && Newline !in Visible(rest)
    ensures var r := Serve(Open(file, []), events);
            r.file == Commit(file, ps) && r.echoes == Snapshots(Content(file), ps) && r.buf == rest
  {
    ServeOpenDrains(file, events);
    DrainUnique(Chunks(events), ps, rest);
  }

  /** A fresh healthy connection ends up as the drain of its whole stream. */
  lemma ServeOpenDrains(file: DataFile, events: seq<RecvEvent>)
    requires forall i :: 0 <= i < |events| ==> Benign(events[i])
    ensures var r := Serve(Open(file, []), events);
            var d := Drain(Chunks(events));
            && r.closed.None? && r.buf == d.rest && r.file == Commit(file, d.packets)
            && r.echoes == Snapshots(Content(file), d.packets)
  {
    var s := Open(file, []);
    assert Visible(s.buf) == [];
    ServeHealthy(s, events);
    assert s.buf + Chunks(events) == Chunks(events);
    var d := Drain(Chunks(events));
    assert s.echoes + Snapshots(Content(file), d.packets) == Snapshots(Content(file), d.packets);
  }

  /** Two packets in two chunks: the client gets back the first packet, then
      both. */
  lemma HelloWorld()
    ensures var hello: seq<byte> := [104, 101, 108, 108, 111, 10];
            var world: seq<byte> := [119, 111, 114, 108, 100, 10];
            var r := Serve(Open(Absent, []), [Received(hello, true), Received(world, true)]);
            r.file == Present(hello + world) && r.echoes == [hello, hello + world] && r.buf == []
  {
    var hello: seq<byte> := [104, 101, 108, 108, 111, 10];
    var world: seq<byte> := [119, 111, 114, 108, 100, 10];
    var events := [Received(hello, true), Received(world, true)];
    TwoChunks(hello, world);
    assert IsPacket(hello) && IsPacket(world);
    PacketPair(hello, world);
    assert Visible([]) == [];
    ServeFromPackets(Absent, events, [hello, world], []);
  }

  /** A packet split across chunks is committed once it is complete; what
      follows its newline waits in the buffer. */
  lemma SplitPacket()
    ensures var r := Serve(Open(Absent, []), [Received([97, 98], true), Received([99, 10, 100], true)]);
            r.file == Present([97, 98, 99, 10]) && r.echoes == [[97, 98, 99, 10]] && r.buf == [100]
  {
    var packet: seq<byte> := [97, 98, 99, 10];
    var events := [Received([97, 98], true), Received([99, 10, 100], true)];
    TwoChunks([97, 98], [99, 10, 100]);
    assert [97, 98] + [99, 10, 100] == packet + [100];
    assert IsPacket(packet);
    assert AllPackets([packet]);
    StrchrWithoutNul([100]);
    assert Concat([packet]) == packet + [];
    ServeFromPackets(Absent, events, [packet], [100]);
    assert [] + packet == packet;
  }

  lemma TwoChunks(a: seq<byte>, b: seq<byte>)
    ensures Chunks([Received(a, true), Received(b, true)]) == a + b
  {
    assert [Received(a, true), Received(b, true)][1..] == [Received(b, true)];
    assert Chunks([Received(b, true)]) == b + Chunks([]);
  }

  lemma PacketPair(p: seq<byte>, q: seq<byte>)
    requires IsPacket(p) && IsPacket(q)
    ensures AllPackets([p, q]) && Concat([p, q]) == p + q
    ensures Commit(Absent, [p, q]) == Present(p + q)
    ensures Snapshots([], [p, q]) == [p, p + q]
  {
    assert [p, q][1..] == [q];
    assert Concat([q]) == q + Concat([]);
    assert q + [] == q;
    assert [] + p == p;
    assert Commit(Absent, [p, q]) == Commit(Present(p), [q]);
    assert Commit(Present(p), [q]) == Commit(Present(p + q), []);
    assert Snapshots([], [p, q]) == [p] + Snapshots(p, [q]);
  }
}

=== FILE: framing.dfy ===
/** Packet framing over the occupied part of a reassembly buffer: a packet
    runs from the start of the buffer through the first newline the
    NUL-terminated scan can see, and what follows it moves to the front. */
module Framing {
  import opened Buffers

  /** One complete packet: its last byte is the only newline in it, and it
      holds no zero byte (the scan stops at the first one). */
  predicate IsPacket(p: seq<byte>)
  {
    |p| > 0 && p[|p| - 1] == Newline && Newline !in p[..|p| - 1] && Nul !in p
  }

  /** A packet cut from the front of the buffer, and the bytes shifted to
      the front after it. */
  datatype Cut = Cut(packet: seq<byte>, rest: seq<byte>)

  /** One pass of the scan (server/aesdsocket.c:213-215): the packet runs
      from the start of the buffer through the newline the scan found, and
      the remainder is every byte after it. */
  function Extract(buf: seq<byte>): (r: Option<Cut>)
    ensures r.None? <==> Newline !in Visible(buf)
    ensures r.Some? ==> IsPacket(r.value.packet) && r.value.packet + r.value.rest == buf
  {
    match Strchr(buf)
    case None => None
    case Some(i) =>
      var p := buf[..i + 1];
      assert p[..|p| - 1] == buf[..i];
      assert buf == p + buf[i + 1..];
      Some(Cut(p, buf[i + 1..]))
  }

  /** The packets of a buffer in arrival order, and the fragment left once
      the scan finds no further newline. */
  datatype Framed = Framed(packets: seq<seq<byte>>, rest: seq<byte>)

  /** The inner `while (strchr(...))` loop of the current server, without
      the file and socket work it does per packet. */
  function Drain(buf: seq<byte>): (f: Framed)
    ensures AllPackets(f.packets)
    ensures Newline !in Visible(f.rest)
    decreases |buf|
  {
    match Extract(buf)
    case None => Framed([], buf)
    case Some(cut) =>
      var f := Drain(cut.rest);
      PrependPacket(cut.packet, f.packets);
      Framed([cut.packet] + f.packets, f.rest)
  }

  /** Nothing is lost or reordered: the packets, then the fragment, are the
      buffer. */
  lemma {:induction false} DrainReassembles(buf: seq<byte>)
    ensures Concat(Drain(buf).packets) + Drain(buf).rest == buf
    decreases |buf|
  {
    var r := Extract(buf);
    if r.Some? {
      var cut := r.value;
      var f := Drain(cut.rest);
      DrainReassembles(cut.rest);
      assert Drain(buf) == Framed([cut.packet] + f.packets, f.rest);
      ConcatCons(cut.packet, f.packets);
      AppendAssoc(cut.packet, Concat(f.packets), f.rest);
    }
  }

  lemma PrependPacket(p: seq<byte>, ps: seq<seq<byte>>)
    requires IsPacket(p) && AllPackets(ps)
    ensures AllPackets([p] + ps)
  {
    assert ([p] + ps)[1..] == ps;
  }

  /** The scan of a buffer that starts with a packet stops at that packet's
      newline, whatever follows. */
  lemma {:induction false} StrchrFindsLeadingPacket(p: seq<byte>, tail: seq<byte>)
    requires IsPacket(p)
    ensures Strchr(p + tail) == Some(|p| - 1)
    decreases |p|
  {
    if |p| > 1 {
      assert p[0] in p[..|p| - 1];
      var q := p[1..];
      assert q[..|q| - 1] == p[1..|p| - 1];
      assert forall b :: b in q ==> b in p;
      StrchrFindsLeadingPacket(q, tail);
      assert (p + tail)[1..] == q + tail;
    }
  }

  /** A buffer that starts with a packet gives up exactly that packet. */
  lemma ExtractLeadingPacket(p: seq<byte>, tail: seq<byte>)
    requires IsPacket(p)
    ensures Extract(p + tail) == Some(Cut(p, tail))
  {
    StrchrFindsLeadingPacket(p, tail);
    SplitAppend(p, tail);
  }

  /** `Drain` is the only decomposition of a buffer into complete packets
      followed by a fragment in which the scan sees no newline. */
  lemma {:induction false} DrainUnique(buf: seq<byte>, ps: seq<seq<byte>>, rest: seq<byte>)
    requires Concat(ps) + rest == buf
    requires AllPackets(ps)
    requires Newline !in Visible(rest)
    ensures Drain(buf) == Framed(ps, rest)
    decreases |ps|
  {
    if |ps| == 0 {
      assert buf == rest;
    } else {
      var p := ps[0];
      var tail := Concat(ps[1..]) + rest;
      assert ps == [p] + ps[1..];
      ConcatCons(p, ps[1..]);
      AppendAssoc(p, Concat(ps[1..]), rest);
      StrchrFindsLeadingPacket(p, tail);
      SplitAppend(p, tail);
      assert Extract(buf) == Some(Cut(p, tail));
      DrainUnique(tail, ps[1..], rest);
    }
  }

  predicate AllPackets(ps: seq<seq<byte>>)
  {
    forall i :: 0 <= i < |ps| ==> IsPacket(ps[i])
  }

  lemma AllPacketsAppend(a: seq<seq<byte>>, b: seq<seq<byte>>)
    requires AllPackets(a) && AllPackets(b)
    ensures AllPackets(a + b)
  {
    forall i | 0 <= i < |a + b|
      ensures IsPacket((a + b)[i])
    {
      if i < |a| {
        assert (a + b)[i] == a[i];
      } else {
        assert (a + b)[i] == b[i - |a|];
      }
    }
  }

  /** Framing a buffer and then the bytes that follow it gives the packets of
      the whole, in order: the leftover fragment is completed by later bytes. */
  lemma DrainAppend(b1: seq<byte>, b2: seq<byte>)
    ensures var f := Drain(b1);
            var g := Drain(f.rest + b2);
            Drain(b1 + b2) == Framed(f.packets + g.packets, g.rest)
  {
    var f := Drain(b1);
    var g := Drain(f.rest + b2);
    var cf, cg := Concat(f.packets), Concat(g.packets);
    ConcatAppend(f.packets, g.packets);
    AppendAssoc(cf, cg, g.rest);
    DrainReassembles(f.rest + b2);
    AppendAssoc(cf, f.rest, b2);
    DrainReassembles(b1);
    assert Concat(f.packets + g.packets) + g.rest == b1 + b2;
    AllPacketsAppend(f.packets, g.packets);
    DrainUnique(b1 + b2, f.packets + g.packets, g.rest);
  }

  /** A drained buffer yields nothing more: the inner loop has exited. */
  lemma DrainIdempotent(buf: seq<byte>)
    ensures Drain(Drain(buf).rest) == Framed([], Drain(buf).rest)
  {
    DrainUnique(Drain(buf).rest, [], Drain(buf).rest);
  }
}

=== FILE: legacy.dfy ===
/** The earlier variant of the server (`server/server.bak/aesdsocket.c`;
    line numbers below refer to that file):
    a fixed 1024-byte receive buffer filled by non-blocking `recv`, at most
    one packet taken per successful `recv`, an echo whose `send` results are
    ignored, and an accept loop that leaves on any interrupted `accept`. */
module Legacy {
  import opened Buffers
  import opened Servers
  import opened Framing

  /** `receive_buffer[1024]` and `send_buffer[1024]`. */
  const BufferSize: nat := 1024

  /** What the `recv` of line 129 may ask for: the free space less one byte
      for the terminator. */
  function Room(buf: seq<byte>): nat
  {
    if |buf| < BufferSize then BufferSize - |buf| - 1 else 0
  }

  /** What one `recv` returned: some bytes (none is the peer's shutdown, or
      an empty request), or a failure, which under `MSG_DONTWAIT` includes
      there being nothing to read yet. */
  datatype LegacyRecv = Got(bytes: seq<byte>) | RecvFails

  /** One turn of the receive loop: the exit flag as the loop condition reads
      it, what `recv` returned, and, should a packet be echoed, how many bytes
      each `send` of the echo took (0 for a failed one). */
  datatype Tick = Tick(exitFlag: bool, recv: LegacyRecv, sends: seq<nat>)

  /** Why a connection ended: the exit flag was seen, or `recv` returned
      nothing. */
  datatype LegacyClose = FlagSeen | RecvEnded

  /** A connection's state: the occupied part of the receive buffer, the data
      file, the bytes sent to the client, and how it ended, if it did. */
  datatype LegacySession = LegacySession(buf: seq<byte>, file: DataFile, wire: seq<byte>, closed: Option<LegacyClose>)

  /** Lines 140-145: the file is read from its start in `BufferSize` pieces
      and each piece goes to one `send`, whose result is ignored. Once the
      script of `send` results runs out every `send` takes its whole piece. */
  function LegacyEchoFrom(log: seq<byte>, pos: nat, sends: seq<nat>): seq<byte>
    requires pos <= |log|
    decreases |log| - pos
  {
    if pos == |log| then []
    else
      var len := Min(BufferSize, |log| - pos);
      var k := if |sends| == 0 then len else Min(sends[0], len);
      log[pos..pos + k] + LegacyEchoFrom(log, pos + len, if |sends| == 0 then [] else sends[1..])
  }

  /** Every `send` that takes its whole piece. */
  predicate FullSends(sends: seq<nat>)
  {
    forall i :: 0 <= i < |sends| ==> sends[i] >= BufferSize
  }

  /** The echo never sends more than the file holds, and with every `send`
      taking its whole piece it sends the file exactly. */
  lemma {:induction false} LegacyEchoBounded(log: seq<byte>, pos: nat, sends: seq<nat>)
    requires pos <= |log|
    ensures |LegacyEchoFrom(log, pos, sends)| <= |log| - pos
    ensures FullSends(sends) ==> LegacyEchoFrom(log, pos, sends) == log[pos..]
    decreases |log| - pos
  {
    if pos < |log| {
      var len := Min(BufferSize, |log| - pos);
      var k := if |sends| == 0 then len else Min(sends[0], len);
      var more := if |sends| == 0 then [] else sends[1..];
      assert LegacyEchoFrom(log, pos, sends) == log[pos..pos + k] + LegacyEchoFrom(log, pos + len, more);
      LegacyEchoBounded(log, pos + len, more);
      if FullSends(sends) {
        assert k == len;
        assert FullSends(more);
        assert log[pos..] == log[pos..pos + len] + log[pos + len..];
      }
    }
  }

  /** The bytes left in the buffer after a `recv` of `bytes`: the first
      packet, if any, is shifted out. */
  function Leftover(buf: seq<byte>, bytes: seq<byte>): seq<byte>
  {
    match Extract(buf + bytes)
    case None => buf + bytes
    case Some(cut) => cut.rest
  }

  /** The `recv` results are ones the kernel can give: never more bytes than
      were asked for, given the buffer each call sees. */
  predicate Admissible(buf: seq<byte>, ticks: seq<Tick>)
    decreases |ticks|
  {
    |ticks| == 0 ||
    (match ticks[0].recv
     case RecvFails => true
     case Got(bytes) => |bytes| <= Room(buf) && Admissible(Leftover(buf, bytes), ticks[1..]))
  }

  /** One turn of the receive loop, lines 128-150. */
  function LegacyStep(s: LegacySession, t: Tick): LegacySession
  {
    if t.exitFlag then s.(closed := Some(FlagSeen))
    else
      match t.recv
      case RecvFails => s.(closed := Some(RecvEnded))
      case Got(bytes) =>
        if |bytes| == 0 then s.(closed := Some(RecvEnded))
        else
          match Extract(s.buf + bytes)
          case None => s.(buf := s.buf + bytes)
          case Some(cut) =>
            var log := Content(s.file) + cut.packet;
            s.(buf := cut.rest, file := Present(log), wire := s.wire + LegacyEchoFrom(log, 0, t.sends))
  }

  /** The buffer keeps room for the terminator: a `recv` the kernel can give
      never overfills it. */
  lemma LegacyStepBounded(s: LegacySession, t: Tick)
    requires |s.buf| < BufferSize
    requires t.recv.Got? ==> |t.recv.bytes| <= Room(s.buf)
    ensures |LegacyStep(s, t).buf| < BufferSize
  {
    if !t.exitFlag && t.recv.Got? && |t.recv.bytes| > 0 {
      var b := s.buf + t.recv.bytes;
      assert |b| < BufferSize;
      match Extract(b)
      case None =>
      case Some(cut) =>
        assert |cut.packet| + |cut.rest| == |b|;
    }
  }

  /** A set exit flag, a failed `recv` and an empty one all end the
      connection without touching the log or the client. */
  lemma LegacyStepCloses(s: LegacySession, t: Tick)
    requires t.exitFlag || t.recv == RecvFails || t.recv == Got([])
    ensures var r := LegacyStep(s, t);
            r.closed.Some? && r.buf == s.buf && r.file == s.file && r.wire == s.wire
            && (r.closed == Some(FlagSeen) <==> t.exitFlag)
  {
  }

  /** One packet per `recv`: the first packet the buffer holds after the
      `recv` is logged, and every further packet stays in the buffer,
      unlogged, until a later `recv` returns data. The bytes then sent only
      extend what the client has, by at most the new log's length and by
      exactly the new log when every `send` takes its whole piece (a short
      `send` is not retried, so they need not be a prefix of the log).
      Without a packet nothing is sent. */
  lemma OnePacketPerReceive(s: LegacySession, t: Tick)
    requires s.closed.None? && !t.exitFlag && t.recv.Got? && |t.recv.bytes| > 0
    ensures var r := LegacyStep(s, t);
            var d := Drain(s.buf + t.recv.bytes);
            && r.closed.None?
            && (|d.packets| == 0 ==> r.file == s.file && r.buf == s.buf + t.recv.bytes && r.wire == s.wire)
            && (|d.packets| > 0 ==>
                  && Content(r.file) == Content(s.file) + d.packets[0]
                  && Drain(r.buf) == Framed(d.packets[1..], d.rest)
                  && s.wire <= r.wire && |r.wire| <= |s.wire| + |Content(r.file)|
                  && (FullSends(t.sends) ==> r.wire == s.wire + Content(r.file)))
  {
    var b := s.buf + t.recv.bytes;
    match Extract(b)
    case None =>
      assert Drain(b) == Framed([], b);
    case Some(cut) =>
      assert Drain(b) == Framed([cut.packet] + Drain(cut.rest).packets, Drain(cut.rest).rest);
      assert ([cut.packet] + Drain(cut.rest).packets)[1..] == Drain(cut.rest).packets;
      var log := Content(s.file) + cut.packet;
      LegacyEchoBounded(log, 0, t.sends);
      assert log[0..] == log;
  }

  /** A buffer that fills to 1023 bytes without a newline ends the
      connection: the next `recv` may ask for no bytes, gets none, and the
      loop reads that as the peer's shutdown. */
  lemma FullBufferCloses(s: LegacySession, t: Tick)
    requires |s.buf| == BufferSize - 1
    requires t.recv.Got? ==> |t.recv.bytes| <= Room(s.buf)
    ensures LegacyStep(s, t).closed.Some?
  {
  }

  /** The receive loop over a script of ticks; an exhausted script is a
      `recv` that finds nothing to read, which ends the connection. */
  function LegacyServe(s: LegacySession, ticks: seq<Tick>): (r: LegacySession)
    requires Admissible(s.buf, ticks)
    decreases |ticks|
  {
    if s.closed.Some? then s
    else if |ticks| == 0 then s.(closed := Some(RecvEnded))
    else
      var s1 := LegacyStep(s, ticks[0]);
      AdmissibleNext(s, ticks);
      if s1.closed.Some? then s1 else LegacyServe(s1, ticks[1..])
  }

  lemma AdmissibleNext(s: LegacySession, ticks: seq<Tick>)
    requires |ticks| > 0 && Admissible(s.buf, ticks)
    ensures LegacyStep(s, ticks[0]).closed.None? ==> Admissible(LegacyStep(s, ticks[0]).buf, ticks[1..])
  {
  }

  /** Lines 118-156 once the data file is open (`a+` creates it): the
      receive loop from an empty buffer. */
  function LegacyConnection(file: DataFile, ticks: seq<Tick>): LegacySession
    requires Admissible([], ticks)
  {
    LegacyServe(LegacySession([], Present(Content(file)), [], None), ticks)
  }

  /** Every connection ends, its buffer never overflows, and its log only
      grows. */
  lemma {:induction false} LegacyServeSpec(s: LegacySession, ticks: seq<Tick>)
    requires Admissible(s.buf, ticks) && |s.buf| < BufferSize
    ensures var r := LegacyServe(s, ticks);
            r.closed.Some? && |r.buf| < BufferSize && Content(s.file) <= Content(r.file)
    decreases |ticks|
  {
    if s.closed.None? && |ticks| > 0 {
      var t := ticks[0];
      LegacyStepBounded(s, t);
      LegacyStepLogGrows(s, t);
      AdmissibleNext(s, ticks);
      if LegacyStep(s, t).closed.None? {
        LegacyServeSpec(LegacyStep(s, t), ticks[1..]);
      }
    }
  }

  lemma LegacyStepLogGrows(s: LegacySession, t: Tick)
    ensures Content(s.file) <= Content(LegacyStep(s, t).file)
  {
  }

  /** Two packets arriving in one `recv`, with nothing more to read: only
      the first is logged and echoed; the second is lost with the
      connection. */
  lemma SecondPacketLost(p: seq<byte>, q: seq<byte>)
    requires IsPacket(p) && IsPacket(q) && |p| + |q| < BufferSize
    ensures var r := LegacyConnection(Absent, [Tick(false, Got(p + q), [])]);
            r.file == Present(p) && r.wire == p && r.buf == q && r.closed == Some(RecvEnded)
  {
    var ticks := [Tick(false, Got(p + q), [])];
    var s0 := LegacySession([], Present([]), [], None);
    FirstPacketTaken(p, q);
    assert Admissible([], ticks) by {
      assert Admissible(Leftover([], p + q), ticks[1..]);
    }
    assert LegacyServe(s0, ticks) == LegacyServe(LegacyStep(s0, ticks[0]), []);
  }

  lemma FirstPacketTaken(p: seq<byte>, q: seq<byte>)
    requires IsPacket(p) && |p| + |q| < BufferSize
    ensures Leftover([], p + q) == q
    ensures LegacyStep(LegacySession([], Present([]), [], None), Tick(false, Got(p + q), [])) ==
            LegacySession(q, Present(p), p, None)
  {
    var s := LegacySession([], Present([]), [], None);
    var t := Tick(false, Got(p + q), []);
    assert s.buf + t.recv.bytes == p + q;
    ExtractLeadingPacket(p, q);
    StepTakesPacket(s, t, p, q);
    assert Content(s.file) + p == p;
    EchoAll(p);
    assert s.wire + p == p;
  }

  /** A step whose buffer gives up a packet logs it and echoes the new log. */
  lemma StepTakesPacket(s: LegacySession, t: Tick, p: seq<byte>, q: seq<byte>)
    requires !t.exitFlag && t.recv.Got? && |t.recv.bytes| > 0
    requires Extract(s.buf + t.recv.bytes) == Some(Cut(p, q))
    ensures LegacyStep(s, t) ==
            s.(buf := q, file := Present(Content(s.file) + p),
               wire := s.wire + LegacyEchoFrom(Content(s.file) + p, 0, t.sends))
  {
  }

  lemma EchoAll(log: seq<byte>)
    ensures LegacyEchoFrom(log, 0, []) == log
  {
    LegacyEchoBounded(log, 0, []);
    assert log[0..] == log;
  }

  /** A `send` that takes part of a piece is not retried: the client gets the
      start of the first piece and then the next piece, with a gap between. */
  lemma PartialSendLeavesGap(log: seq<byte>)
    requires |log| == BufferSize + 1 && log[1] != log[BufferSize]
    ensures LegacyEchoFrom(log, 0, [1]) == [log[0], log[BufferSize]]
    ensures !(LegacyEchoFrom(log, 0, [1]) <= log)
  {
    assert LegacyEchoFrom(log, BufferSize, []) == log[BufferSize..BufferSize + 1] + LegacyEchoFrom(log, BufferSize + 1, []);
    assert log[0..1] == [log[0]];
  }

  datatype LegacyAccept = LegacyIncoming(opens: bool, ticks: seq<Tick>) | LegacyAcceptFailed(interrupted: bool)

  /** One turn of the accept loop: the exit flag as the loop condition reads
      it, then what `accept` and the `fopen` of the data file did. */
  datatype LegacyAttempt = LegacyAttempt(exitFlag: bool, result: LegacyAccept)

  predicate AdmissibleAttempts(attempts: seq<LegacyAttempt>)
  {
    forall i :: 0 <= i < |attempts| && attempts[i].result.LegacyIncoming? ==>
      Admissible([], attempts[i].result.ticks)
  }

  /** Lines 103-159: any interrupted `accept` leaves the loop, whatever the
      exit flag; a connection whose data file cannot be opened is closed
      unserved; a connection that saw the exit flag set ends the loop at its
      condition; `cleanup_resources` removes the data file. */
  function LegacyAcceptLoop(file: DataFile, attempts: seq<LegacyAttempt>): Server
    requires AdmissibleAttempts(attempts)
    decreases |attempts|
  {
    if |attempts| == 0 then Server(file, true)
    else if attempts[0].exitFlag then Server(Absent, false)
    else
      match attempts[0].result
      case LegacyAcceptFailed(interrupted) =>
        if interrupted then Server(Absent, false) else LegacyAcceptLoop(file, attempts[1..])
      case LegacyIncoming(opens, ticks) =>
        if !opens then LegacyAcceptLoop(file, attempts[1..])
        else
          var c := LegacyConnection(file, ticks);
          if c.closed == Some(FlagSeen) then Server(Absent, false) else LegacyAcceptLoop(c.file, attempts[1..])
  }

  /** The data file outlives the loop only while the server runs, and while
      it runs the log only grows. */
  lemma {:induction false} LegacyAcceptLoopSpec(file: DataFile, attempts: seq<LegacyAttempt>)
    requires AdmissibleAttempts(attempts)
    ensures var r := LegacyAcceptLoop(file, attempts);
            && (!r.running ==> r.file == Absent)
            && (r.running ==> Content(file) <= Content(r.file))
    decreases |attempts|
  {
    if |attempts| > 0 && !attempts[0].exitFlag {
      match attempts[0].result
      case LegacyAcceptFailed(_) =>
        LegacyAcceptLoopSpec(file, attempts[1..]);
      case LegacyIncoming(opens, ticks) =>
        if opens {
          var c := LegacyConnection(file, ticks);
          LegacyServeSpec(LegacySession([], Present(Content(file)), [], None), ticks);
          LegacyAcceptLoopSpec(c.file, attempts[1..]);
        } else {
          LegacyAcceptLoopSpec(file, attempts[1..]);
        }
    }
  }

  /** Unlike the current server, an `accept` interrupted while the exit flag
      is still clear ends the server. */
  lemma InterruptedAcceptStops(file: DataFile, attempts: seq<LegacyAttempt>)
    requires AdmissibleAttempts(attempts)
    requires |attempts| > 0 && attempts[0] == LegacyAttempt(false, LegacyAcceptFailed(true))
    ensures LegacyAcceptLoop(file, attempts) == Server(Absent, false)
  {
  }

  /** A turn of the earlier server in which the exit flag is never seen set
      and `accept` is not interrupted; the data file may fail to open and
      the connection may end however `recv` ends it. */
  predicate LegacyFlagClear(a: LegacyAttempt)
  {
    && !a.exitFlag
    && a.result != LegacyAcceptFailed(true)
    && (a.result.LegacyIncoming? ==> forall j :: 0 <= j < |a.result.ticks| ==> !a.result.ticks[j].exitFlag)
  }

  /** A connection whose ticks never read the exit flag set ends by `recv`,
      never by the flag. */
  lemma {:induction false} LegacyServeFlagClear(s: LegacySession, ticks: seq<Tick>)
    requires Admissible(s.buf, ticks) && s.closed != Some(FlagSeen)
    requires forall j :: 0 <= j < |ticks| ==> !ticks[j].exitFlag
    ensures LegacyServe(s, ticks).closed != Some(FlagSeen)
    decreases |ticks|
  {
    if s.closed.None? && |ticks| > 0 {
      AdmissibleNext(s, ticks);
      var s1 := LegacyStep(s, ticks[0]);
      if s1.closed.None? {
        LegacyServeFlagClear(s1, ticks[1..]);
      }
    }
  }

  lemma AdmissibleRest(attempts: seq<LegacyAttempt>)
    requires |attempts| > 0 && AdmissibleAttempts(attempts)
    ensures AdmissibleAttempts(attempts[1..])
  {
    forall i | 0 <= i < |attempts| - 1 && attempts[1..][i].result.LegacyIncoming?
      ensures Admissible([], attempts[1..][i].result.ticks)
    {
      assert attempts[1..][i] == attempts[i + 1];
    }
  }

  /** The earlier server keeps running through failed accepts, data files
      that fail to open and connections that end by `recv`, as long as
      neither the exit flag nor an interrupted `accept` is seen. */
  lemma {:induction false} LegacyRunsWhileFlagClear(file: DataFile, attempts: seq<LegacyAttempt>)
    requires AdmissibleAttempts(attempts)
    requires forall i :: 0 <= i < |attempts| ==> LegacyFlagClear(attempts[i])
    ensures LegacyAcceptLoop(file, attempts).running
    decreases |attempts|
  {
    if |attempts| > 0 {
      var a := attempts[0];
      AdmissibleRest(attempts);
      if a.result.LegacyIncoming? && a.result.opens {
        LegacyServeFlagClear(LegacySession([], Present(Content(file)), [], None), a.result.ticks);
        LegacyRunsWhileFlagClear(LegacyConnection(file, a.result.ticks).file, attempts[1..]);
      } else {
        LegacyRunsWhileFlagClear(file, attempts[1..]);
      }
    }
  }

  /** The earlier server stops, and removes the data file, at the first turn
      that reads the exit flag set or whose `accept` is interrupted, with
      the flag set or not, whatever was served before it. */
  lemma {:induction false} LegacyAcceptLoopStops(file: DataFile, attempts: seq<LegacyAttempt>, k: nat)
    requires AdmissibleAttempts(attempts) && k < |attempts|
    requires forall i :: 0 <= i < k ==> LegacyFlagClear(attempts[i])
    requires attempts[k].exitFlag || attempts[k].result == LegacyAcceptFailed(true)
    ensures LegacyAcceptLoop(file, attempts) == Server(Absent, false)
    decreases k
  {
    if k > 0 {
      var a := attempts[0];
      AdmissibleRest(attempts);
      if a.result.LegacyIncoming? && a.result.opens {
        LegacyServeFlagClear(LegacySession([], Present(Content(file)), [], None), a.result.ticks);
        LegacyAcceptLoopStops(LegacyConnection(file, a.result.ticks).file, attempts[1..], k - 1);
      } else {
        LegacyAcceptLoopStops(file, attempts[1..], k - 1);
      }
    }
  }
}

=== FILE: listener.dfy ===
/** The accept loop of the current server, `server/aesdsocket.c` lines
    151-278: connections are served one at a time until the exit flag is
    seen, and the data file is removed on the way out. */
module Listener {
  import opened Buffers
  import opened Servers
  import opened Framing
  import opened Connection

  /** What `accept` returned: a connection with the script of its `recv`
      results and per-packet outcomes, or a failure, interrupted or not,
      after which the exit flag read `flagAfter`. */
  datatype AcceptResult =
    | Incoming(events: seq<RecvEvent>, ios: seq<PacketIo>)
    | AcceptFailed(interrupted: bool, flagAfter: bool)

  /** One turn of the accept loop: the exit flag as the loop condition reads
      it, then what `accept` did. */
  datatype Attempt = Attempt(exitFlag: bool, result: AcceptResult)

  /** One connection served to its end. When its script runs out while the
      connection is still open, it is taken to have been closed by the peer:
      the loop only leaves a connection when it closes. */
  function ServeConnection(file: DataFile, events: seq<RecvEvent>, ios: seq<PacketIo>): Session
  {
    var r := Serve(Open(file, ios), events);
    if r.closed.None? then r.(closed := Some(PeerClosed)) else r
  }

  /** The loop over a script of attempts. An exhausted script leaves the
      server waiting in `accept`; leaving the loop unlinks the data file. A
      connection that saw the exit flag set stops the loop, since the flag
      stays set and the loop condition reads it next. */
  function AcceptLoop(file: DataFile, attempts: seq<Attempt>): (r: Server)
    decreases |attempts|
  {
    if |attempts| == 0 then Server(file, true)
    else if attempts[0].exitFlag then Server(Absent, false)
    else
      match attempts[0].result
      case AcceptFailed(interrupted, flagAfter) =>
        if interrupted && flagAfter then Server(Absent, false) else AcceptLoop(file, attempts[1..])
      case Incoming(events, ios) =>
        var c := ServeConnection(file, events, ios);
        if SawShutdown(c.closed) then Server(Absent, false) else AcceptLoop(c.file, attempts[1..])
  }

  /** The data file outlives the loop only while the server is running, and
      while it runs the log only grows. */
  lemma {:induction false} AcceptLoopSpec(file: DataFile, attempts: seq<Attempt>)
    ensures var r := AcceptLoop(file, attempts);
            && (!r.running ==> r.file == Absent)
            && (r.running ==> Content(file) <= Content(r.file))
    decreases |attempts|
  {
    if |attempts| > 0 && !attempts[0].exitFlag {
      match attempts[0].result
      case AcceptFailed(_, _) =>
        AcceptLoopSpec(file, attempts[1..]);
      case Incoming(events, ios) =>
        var c := ServeConnection(file, events, ios);
        ServeLogGrows(Open(file, ios), events);
        AcceptLoopSpec(c.file, attempts[1..]);
    }
  }

  /** Over a whole connection, the log only grows. */
  lemma {:induction false} ServeLogGrows(s: Session, events: seq<RecvEvent>)
    ensures Content(s.file) <= Content(Serve(s, events).file)
    decreases |events|
  {
    if s.closed.None? && |events| > 0 {
      ReceiveLogsPackets(s, events[0]);
      ServeLogGrows(Receive(s, events[0]), events[1..]);
    }
  }

  /** A turn the loop survives without serving anyone: `accept` failed, and
      not by an interruption seen with the exit flag set. */
  predicate Survivable(a: Attempt)
  {
    !a.exitFlag && a.result.AcceptFailed? && !(a.result.interrupted && a.result.flagAfter)
  }

  /** Failed accepts are logged and retried: they neither stop the server nor
      touch the data file. */
  lemma {:induction false} AcceptErrorsRetried(file: DataFile, attempts: seq<Attempt>)
    requires forall i :: 0 <= i < |attempts| ==> Survivable(attempts[i])
    ensures AcceptLoop(file, attempts) == Server(file, true)
    decreases |attempts|
  {
    if |attempts| > 0 {
      AcceptErrorsRetried(file, attempts[1..]);
    }
  }

  /** A turn in which the exit flag is never seen set: not at the loop head,
      not after a failed `accept`, and, for a connection, in none of its
      `recv` or `send` interruptions. Any other failure may happen. */
  predicate FlagClear(a: Attempt)
  {
    && !a.exitFlag
    && a.result != AcceptFailed(true, true)
    && (a.result.Incoming? ==> RecvInterrupted(true) !in a.result.events && QuietIos(a.result.ios))
  }

  /** A connection in which the exit flag is never seen set ends, however
      it ends, without stopping the server. */
  lemma ConnectionFlagClear(file: DataFile, a: Attempt)
    requires FlagClear(a) && a.result.Incoming?
    ensures !SawShutdown(ServeConnection(file, a.result.events, a.result.ios).closed)
  {
    ServeFlagClear(Open(file, a.result.ios), a.result.events);
  }

  /** The loop leaves only when the exit flag is seen: a failed `accept` and
      a connection closed for any other reason (peer shutdown, `recv`
      error, failed open, short write, failed read, failed `send`) leave
      the server running. */
  lemma {:induction false} RunsWhileFlagClear(file: DataFile, attempts: seq<Attempt>)
    requires forall i :: 0 <= i < |attempts| ==> FlagClear(attempts[i])
    ensures AcceptLoop(file, attempts).running
    decreases |attempts|
  {
    if |attempts| > 0 {
      var a := attempts[0];
      if a.result.Incoming? {
        ConnectionFlagClear(file, a);
        RunsWhileFlagClear(ServeConnection(file, a.result.events, a.result.ios).file, attempts[1..]);
      } else {
        RunsWhileFlagClear(file, attempts[1..]);
      }
    }
  }

  /** The loop stops at the first attempt that reads the exit flag set, or
      whose `accept` is interrupted with the flag set, whatever was served
      before it and whatever comes after. */
  lemma {:induction false} AcceptLoopStops(file: DataFile, attempts: seq<Attempt>, k: nat)
    requires k < |attempts|
    requires forall i :: 0 <= i < k ==> FlagClear(attempts[i])
    requires attempts[k].exitFlag || attempts[k].result == AcceptFailed(true, true)
    ensures AcceptLoop(file, attempts) == Server(Absent, false)
    decreases k
  {
    if k > 0 {
      var a := attempts[0];
      if a.result.Incoming? {
        ConnectionFlagClear(file, a);
        AcceptLoopStops(ServeConnection(file, a.result.events, a.result.ios).file, attempts[1..], k - 1);
      } else {
        AcceptLoopStops(file, attempts[1..], k - 1);
      }
    }
  }

  /** A connection in a healthy environment: its `recv` results are benign
      apart from, possibly, the peer's shutdown. */
  predicate HealthyVisit(a: Attempt)
  {
    && !a.exitFlag && a.result.Incoming? && a.result.ios == []
    && forall i :: 0 <= i < |a.result.events| ==> Benign(a.result.events[i]) || PeerShutdown(a.result.events[i])
  }

  /** The peer's orderly shutdown: `recv` returned 0, whatever the
      allocator would have done with a chunk. */
  predicate PeerShutdown(ev: RecvEvent)
  {
    ev.Received? && |ev.chunk| == 0
  }

  /** The bytes a connection delivers up to the peer's shutdown. */
  function Delivered(events: seq<RecvEvent>): seq<byte>
    decreases |events|
  {
    if |events| == 0 || PeerShutdown(events[0]) then []
    else (if events[0].Received? then events[0].chunk else []) + Delivered(events[1..])
  }

  /** What a run of healthy connections adds to the log: the complete packets
      of each connection's stream, connection after connection. */
  function Logged(attempts: seq<Attempt>): seq<byte>
    requires forall i :: 0 <= i < |attempts| ==> HealthyVisit(attempts[i])
    decreases |attempts|
  {
    if |attempts| == 0 then []
    else
      assert HealthyVisit(attempts[0]);
      Concat(Drain(Delivered(attempts[0].result.events)).packets) + Logged(attempts[1..])
  }

  /** Served healthily, each connection contributes exactly its complete
      packets to the log; the fragment a peer leaves unterminated is
      dropped when it goes, and the server keeps running. */
  lemma {:induction false} HealthyConnectionsLog(file: DataFile, attempts: seq<Attempt>)
    requires forall i :: 0 <= i < |attempts| ==> HealthyVisit(attempts[i])
    ensures var r := AcceptLoop(file, attempts);
            r.running && Content(r.file) == Content(file) + Logged(attempts)
    decreases |attempts|
  {
    if |attempts| == 0 {
      assert Content(file) + [] == Content(file);
    } else {
      var a := attempts[0];
      var c := ServeConnection(file, a.result.events, []);
      HealthyConnection(file, a.result.events);
      HealthyConnectionsLog(c.file, attempts[1..]);
      AppendAssoc(Content(file), Concat(Drain(Delivered(a.result.events)).packets), Logged(attempts[1..]));
    }
  }

  /** One healthy connection, to its end: it is closed by its peer, and its
      complete packets are logged. */
  lemma HealthyConnection(file: DataFile, events: seq<RecvEvent>)
    requires forall i :: 0 <= i < |events| ==> Benign(events[i]) || PeerShutdown(events[i])
    ensures var c := ServeConnection(file, events, []);
            c.closed == Some(PeerClosed) &&
            Content(c.file) == Content(file) + Concat(Drain(Delivered(events)).packets)
  {
    var k := BenignPrefix(events);
    var s := Open(file, []);
    ServeSplit(s, events, k);
    ServeOpenHealthy(file, events[..k]);
    DeliveredUpTo(events, k);
    CloseAfterHealthy(Serve(s, events[..k]), events[k..]);
  }

  lemma ServeSplit(s: Session, events: seq<RecvEvent>, k: nat)
    requires k <= |events|
    ensures Serve(s, events) == Serve(Serve(s, events[..k]), events[k..])
  {
    ServeAppend(s, events[..k], events[k..]);
    assert events == events[..k] + events[k..];
  }

  lemma ServeOpenHealthy(file: DataFile, events: seq<RecvEvent>)
    requires forall i :: 0 <= i < |events| ==> Benign(events[i])
    ensures var m := Serve(Open(file, []), events);
            m.closed.None? && Content(m.file) == Content(file) + Concat(Drain(Chunks(events)).packets)
  {
    ServeOpenDrains(file, events);
    CommitContent(file, Drain(Chunks(events)).packets);
  }

  /** After the benign part, the connection ends by the peer's shutdown or by
      running out of script, which is taken as the same. */
  lemma CloseAfterHealthy(m: Session, tail: seq<RecvEvent>)
    requires m.closed.None?
    requires |tail| > 0 ==> PeerShutdown(tail[0])
    ensures var r := Serve(m, tail);
            var c := if r.closed.None? then r.(closed := Some(PeerClosed)) else r;
            c.closed == Some(PeerClosed) && c.file == m.file
  {
    if |tail| > 0 {
      assert Serve(m, tail) == Serve(Receive(m, tail[0]), tail[1..]);
    }
  }

  /** The benign `recv` results before the peer's shutdown, if any. */
  lemma {:induction false} BenignPrefix(events: seq<RecvEvent>) returns (k: nat)
    requires forall i :: 0 <= i < |events| ==> Benign(events[i]) || PeerShutdown(events[i])
    ensures k <= |events|
    ensures forall i :: 0 <= i < k ==> Benign(events[i])
    ensures k < |events| ==> PeerShutdown(events[k])
  {
    k := 0;
    while k < |events| && !PeerShutdown(events[k])
      invariant k <= |events|
      invariant forall i :: 0 <= i < k ==> Benign(events[i])
    {
      k := k + 1;
    }
  }

  /** Up to the shutdown, the bytes delivered are the chunks received. */
  lemma {:induction false} DeliveredUpTo(events: seq<RecvEvent>, k: nat)
    requires k <= |events|
    requires forall i :: 0 <= i < k ==> Benign(events[i])
    requires k < |events| ==> PeerShutdown(events[k])
    ensures Delivered(events) == Chunks(events[..k])
    decreases k
  {
    if k == 0 {
    } else {
      DeliveredUpTo(events[1..], k - 1);
      assert events[1..][..k - 1] == events[..k][1..];
    }
  }
}

=== FILE: servers.dfy ===
/** What the accept loops of both servers end in. */
module Servers {
  import opened Buffers

  /** Where a server run stands at the end of its script: still in the
      accept loop with the data file as it is, or shut down. */
  datatype Server = Server(file: DataFile, running: bool)
}

=== FILE: transmit.dfy ===
/** Echoing the log in the current server (`server/aesdsocket.c`; line
    numbers below refer to that file): the file is read in `MAX_LENGTH`
    pieces and each piece goes through a send loop that copes with partial
    sends and interrupted calls. The kernel's replies are an input script;
    once the script is exhausted every call succeeds in full. */
module Transmit {
  import opened Buffers

  type Count = n: nat | 0 < n witness 1

  /** One reply of the kernel to `send`: it took up to `n` bytes (never more
      than it was offered), or the call failed with `EINTR` while the exit
      flag read `exitFlag`, or it failed with any other error. */
  datatype SendReply = Accepted(n: Count) | SendInterrupted(exitFlag: bool) | SendError

  datatype Abort = ShutdownDuringSend | SendFailed | ReadFailed

  datatype Ending = Complete | Aborted(why: Abort)

  /** How a send loop ended: bytes transmitted, replies not consumed. */
  datatype Transmission = Transmission(sent: nat, left: seq<SendReply>, ending: Ending)

  /** The bytes the kernel takes from one call offering `remaining` bytes. */
  function Taken(n: Count, remaining: nat): nat
  {
    Min(n, remaining)
  }

  /** A reference definition of the send loop, reply by reply, with
      `remaining` the bytes of the piece not yet sent. */
  function SendLoop(remaining: nat, replies: seq<SendReply>): (t: Transmission)
    ensures t.sent <= remaining
    ensures t.ending.Complete? <==> t.sent == remaining
    ensures t.ending != Aborted(ReadFailed)
    ensures |t.left| <= |replies|
    decreases |replies|
  {
    if remaining == 0 then Transmission(0, replies, Complete)
    else if |replies| == 0 then Transmission(remaining, [], Complete)
    else
      match replies[0]
      case Accepted(n) =>
        var k := Taken(n, remaining);
        var t := SendLoop(remaining - k, replies[1..]);
        t.(sent := k + t.sent)
      case SendInterrupted(exitFlag) =>
        if exitFlag then Transmission(0, replies[1..], Aborted(ShutdownDuringSend))
        else SendLoop(remaining, replies[1..])
      case SendError => Transmission(0, replies[1..], Aborted(SendFailed))
  }

  /** The loop consumes replies from the front: what is left is a suffix. */
  lemma {:induction false} SendLoopLeavesSuffix(remaining: nat, replies: seq<SendReply>)
    ensures var t := SendLoop(remaining, replies);
            t.left == replies[|replies| - |t.left|..]
    decreases |replies|
  {
    if remaining > 0 && |replies| > 0 {
      var k := if replies[0].Accepted? then Taken(replies[0].n, remaining) else 0;
      SendLoopLeavesSuffix(remaining - k, replies[1..]);
    }
  }

  /** The loop aborts only on the reply just consumed: an interruption with
      the exit flag set, or a failure other than an interruption. */
  lemma {:induction false} SendLoopAbortCause(remaining: nat, replies: seq<SendReply>)
    ensures var t := SendLoop(remaining, replies);
            var last := |replies| - |t.left| - 1;
            && (t.ending == Aborted(ShutdownDuringSend) ==> 0 <= last && replies[last] == SendInterrupted(true))
            && (t.ending == Aborted(SendFailed) ==> 0 <= last && replies[last] == SendError)
    decreases |replies|
  {
    if remaining > 0 && |replies| > 0 && replies[0] != SendError && replies[0] != SendInterrupted(true) {
      var k := if replies[0].Accepted? then Taken(replies[0].n, remaining) else 0;
      SendLoopAbortCause(remaining - k, replies[1..]);
    }
  }

  /** Every other reply the loop consumed was retried past: a partial or full
      send, or an interruption while the exit flag was clear. */
  lemma {:induction false} SendLoopRetries(remaining: nat, replies: seq<SendReply>)
    ensures var t := SendLoop(remaining, replies);
            var passed := |replies| - |t.left| - (if t.ending.Aborted? then 1 else 0);
            forall i :: 0 <= i < passed ==> replies[i].Accepted? || replies[i] == SendInterrupted(false)
    decreases |replies|
  {
    if remaining > 0 && |replies| > 0 && replies[0] != SendError && replies[0] != SendInterrupted(true) {
      var k := if replies[0].Accepted? then Taken(replies[0].n, remaining) else 0;
      SendLoopRetries(remaining - k, replies[1..]);
      var t := SendLoop(remaining, replies);
      var passed := |replies| - |t.left| - (if t.ending.Aborted? then 1 else 0);
      forall i | 0 <= i < passed
        ensures replies[i].Accepted? || replies[i] == SendInterrupted(false)
      {
        if i > 0 {
          assert replies[i] == replies[1..][i - 1];
        }
      }
    }
  }

  /** With the exit flag clear at every interruption, the send loop never
      gives up for a shutdown, and the replies it leaves keep the flag
      clear. */
  lemma SendLoopFlagClear(remaining: nat, replies: seq<SendReply>)
    requires SendInterrupted(true) !in replies
    ensures var t := SendLoop(remaining, replies);
            t.ending != Aborted(ShutdownDuringSend) && SendInterrupted(true) !in t.left
  {
    SendLoopAbortCause(remaining, replies);
    SendLoopLeavesSuffix(remaining, replies);
  }

  /** The send loop of the current server, lines 239-255: `sent` only grows,
      never past the length offered, and the bytes on the wire are exactly
      the first `sent` bytes of the piece. */
  method SendAll(data: seq<byte>, replies: seq<SendReply>)
    returns (wire: seq<byte>, left: seq<SendReply>, ending: Ending)
    ensures |wire| <= |data| && wire == data[..|wire|]
    ensures Transmission(|wire|, left, ending) == SendLoop(|data|, replies)
  {
    ghost var goal := SendLoop(|data|, replies);
    var sent: nat := 0;
    var i := 0;
    wire := [];
    while sent < |data|
      invariant sent <= |data| && i <= |replies|
      invariant wire == data[..sent]
      invariant goal == Shifted(sent, SendLoop(|data| - sent, replies[i..]))
      decreases |replies| - i, |data| - sent
    {
      if i == |replies| {
        PrefixGrows(data, sent, |data|);
        wire := wire + data[sent..];
        sent := |data|;
      } else if replies[i].Accepted? {
        var k := Taken(replies[i].n, |data| - sent);
        AcceptedStep(|data|, sent, replies, i);
        PrefixGrows(data, sent, sent + k);
        wire := wire + data[sent..sent + k];
        sent := sent + k;
        i := i + 1;
      } else if replies[i] == SendInterrupted(false) {
        RetryStep(|data| - sent, replies, i);
        i := i + 1;
      } else {
        ending := if replies[i] == SendError then Aborted(SendFailed) else Aborted(ShutdownDuringSend);
        FailStep(|data|, sent, replies, i);
        return wire, replies[i + 1..], ending;
      }
    }
    left := replies[i..];
    ending := Complete;
  }

  /** One step of the reference loop per kind of reply, stated for the
      loop state `sent` bytes in and `i` replies consumed. */
  lemma AcceptedStep(total: nat, sent: nat, replies: seq<SendReply>, i: nat)
    requires sent < total && i < |replies| && replies[i].Accepted?
    ensures var k := Taken(replies[i].n, total - sent);
            Shifted(sent, SendLoop(total - sent, replies[i..])) ==
            Shifted(sent + k, SendLoop(total - (sent + k), replies[i + 1..]))
  {
    assert replies[i..][1..] == replies[i + 1..];
  }

  lemma RetryStep(remaining: nat, replies: seq<SendReply>, i: nat)
    requires remaining > 0 && i < |replies| && replies[i] == SendInterrupted(false)
    ensures SendLoop(remaining, replies[i..]) == SendLoop(remaining, replies[i + 1..])
  {
    assert replies[i..][1..] == replies[i + 1..];
  }

  lemma FailStep(total: nat, sent: nat, replies: seq<SendReply>, i: nat)
    requires sent < total && i < |replies|
    requires replies[i] == SendError || replies[i] == SendInterrupted(true)
    ensures Shifted(sent, SendLoop(total - sent, replies[i..])) ==
            Transmission(sent, replies[i + 1..],
                         if replies[i] == SendError then Aborted(SendFailed) else Aborted(ShutdownDuringSend))
  {
    assert replies[i..][1..] == replies[i + 1..];
  }

  function Shifted(k: nat, t: Transmission): Transmission
  {
    t.(sent := k + t.sent)
  }

  /** What one echo of the log put on the wire, and how it ended. */
  datatype Echoed = Echoed(wire: seq<byte>, left: seq<SendReply>, ending: Ending)

  /** Lines 231-261 from file offset `pos`: `read` returns the next
      `MAX_LENGTH` bytes of the file (0 at its end), each piece is sent in
      full, and the read call numbered `readFault` fails. */
  function EchoFrom(log: seq<byte>, pos: nat, call: nat, readFault: Option<nat>, replies: seq<SendReply>): Echoed
    requires pos <= |log|
    decreases |log| - pos
  {
    if readFault == Some(call) then Echoed([], replies, Aborted(ReadFailed))
    else if pos == |log| then Echoed([], replies, Complete)
    else
      var len := Min(MaxLength, |log| - pos);
      var t := SendLoop(len, replies);
      if t.ending.Aborted? then Echoed(log[pos..pos + t.sent], t.left, t.ending)
      else
        var e := EchoFrom(log, pos + len, call + 1, readFault, t.left);
        Echoed(log[pos..pos + len] + e.wire, e.left, e.ending)
  }

  /** What goes out is always a prefix of the log from `pos`; it is all of
      it when the echo completes; without a read fault, completing and
      sending everything are the same thing. */
  lemma {:induction false} EchoSendsLogPrefix(log: seq<byte>, pos: nat, call: nat, readFault: Option<nat>, replies: seq<SendReply>)
    requires pos <= |log|
    ensures var e := EchoFrom(log, pos, call, readFault, replies);
            && e.wire <= log[pos..]
            && (e.ending.Complete? ==> e.wire == log[pos..])
            && (readFault.None? ==> (e.ending.Complete? <==> e.wire == log[pos..]))
            && (e.ending == Aborted(ReadFailed) ==> readFault.Some? && call <= readFault.value)
    decreases |log| - pos
  {
    if readFault != Some(call) && pos < |log| {
      var len := Min(MaxLength, |log| - pos);
      var t := SendLoop(len, replies);
      if t.ending.Complete? {
        var e := EchoFrom(log, pos + len, call + 1, readFault, t.left);
        EchoSendsLogPrefix(log, pos + len, call + 1, readFault, t.left);
        EchoPieceThenRest(log, pos, len, e.wire);
      } else {
        PrefixGrows(log[pos..], t.sent, |log| - pos);
      }
    }
  }

  /** Likewise for a whole echo: it aborts for a shutdown only if some reply
      is an interruption seen with the exit flag set. */
  lemma {:induction false} EchoFlagClear(log: seq<byte>, pos: nat, call: nat, readFault: Option<nat>, replies: seq<SendReply>)
    requires pos <= |log| && SendInterrupted(true) !in replies
    ensures EchoFrom(log, pos, call, readFault, replies).ending != Aborted(ShutdownDuringSend)
    decreases |log| - pos
  {
    if readFault != Some(call) && pos < |log| {
      var len := Min(MaxLength, |log| - pos);
      SendLoopFlagClear(len, replies);
      var t := SendLoop(len, replies);
      if t.ending.Complete? {
        EchoFlagClear(log, pos + len, call + 1, readFault, t.left);
      }
    }
  }

  /** A whole piece followed by a prefix of what comes after it is a prefix
      of the log from the piece's start, all of it exactly when the second
      part is all of the rest. */
  lemma EchoPieceThenRest(log: seq<byte>, pos: nat, len: nat, more: seq<byte>)
    requires pos + len <= |log| && more <= log[pos + len..]
    ensures log[pos..pos + len] + more <= log[pos..]
    ensures log[pos..pos + len] + more == log[pos..] <==> more == log[pos + len..]
  {
    assert log[pos..] == log[pos..pos + len] + log[pos + len..];
  }

  /** Echo of the whole log, read from its start. */
  function Echo(log: seq<byte>, readFault: Option<nat>, replies: seq<SendReply>): Echoed
  {
    EchoFrom(log, 0, 0, readFault, replies)
  }

  /** With no read fault and a kernel that takes every byte, the whole log
      goes out. */
  lemma {:induction false} EchoHealthy(log: seq<byte>, pos: nat, call: nat)
    requires pos <= |log|
    ensures EchoFrom(log, pos, call, None, []) == Echoed(log[pos..], [], Complete)
    decreases |log| - pos
  {
    if pos < |log| {
      EchoHealthy(log, pos + Min(MaxLength, |log| - pos), call + 1);
    }
  }

  /** One piece of the echo, as the loop sees it: with `wire` the log up to
      `pos` and `goal` the rest of the echo behind it, the send loop's result
      on the next piece either ends the echo or moves the loop state on. */
  lemma EchoAdvance(log: seq<byte>, pos: nat, call: nat, readFault: Option<nat>, replies: seq<SendReply>,
                    goal: Echoed, wire: seq<byte>, piece: seq<byte>, rest: seq<SendReply>, end: Ending)
    requires pos < |log| && readFault != Some(call) && wire == log[..pos]
    requires goal == Behind(wire, EchoFrom(log, pos, call, readFault, replies))
    requires Transmission(|piece|, rest, end) == SendLoop(Min(MaxLength, |log| - pos), replies)
    requires piece == log[pos..pos + Min(MaxLength, |log| - pos)][..|piece|]
    ensures end.Aborted? ==> goal == Echoed(wire + piece, rest, end)
    ensures end.Complete? ==> |piece| == Min(MaxLength, |log| - pos)
    ensures end.Complete? ==> wire + piece == log[..pos + |piece|]
    ensures end.Complete? ==>
              goal == Behind(wire + piece, EchoFrom(log, pos + |piece|, call + 1, readFault, rest))
  {
    assert piece == log[pos..pos + |piece|];
    PrefixGrows(log, pos, pos + |piece|);
    AppendAssoc(wire, piece, EchoFrom(log, pos + |piece|, call + 1, readFault, rest).wire);
  }

  /** The loop has stopped: the read fault came up, or the file is done. */
  lemma EchoStops(log: seq<byte>, pos: nat, call: nat, readFault: Option<nat>, replies: seq<SendReply>,
                  goal: Echoed, wire: seq<byte>)
    requires pos <= |log| && (readFault == Some(call) || pos == |log|)
    requires goal == Behind(wire, EchoFrom(log, pos, call, readFault, replies))
    ensures goal == Echoed(wire, replies, if readFault == Some(call) then Aborted(ReadFailed) else Complete)
  {
    assert wire + [] == wire;
  }

  /** The read-and-send loop of lines 238-261 as the server runs it. */
  method EchoLog(log: seq<byte>, readFault: Option<nat>, replies: seq<SendReply>)
    returns (wire: seq<byte>, left: seq<SendReply>, ending: Ending)
    ensures Echoed(wire, left, ending) == Echo(log, readFault, replies)
  {
    ghost var goal := Echo(log, readFault, replies);
    var pos := 0;
    var call := 0;
    wire := [];
    left := replies;
    while readFault != Some(call) && pos < |log|
      invariant pos <= |log| && wire == log[..pos]
      invariant goal == Behind(wire, EchoFrom(log, pos, call, readFault, left))
      decreases |log| - pos
    {
      var len := Min(MaxLength, |log| - pos);
      var piece, rest, end := SendAll(log[pos..pos + len], left);
      EchoAdvance(log, pos, call, readFault, left, goal, wire, piece, rest, end);
      if end.Aborted? {
        return wire + piece, rest, end;
      }
      wire, left, pos, call := wire + piece, rest, pos + |piece|, call + 1;
    }
    ending := if readFault == Some(call) then Aborted(ReadFailed) else Complete;
    EchoStops(log, pos, call, readFault, left, goal, wire);
  }

  function Behind(w: seq<byte>, e: Echoed): Echoed
  {
    e.(wire := w + e.wire)
  }
}
